=== FILE: README.md ===
# A verified model of a TypeScript brainfuck interpreter

This project models the interpreter pipeline of a small browser brainfuck
playground in Dafny. The pipeline has four stages:

- The **parser** strips every character that is not an instruction. `#` is
  an instruction only when the debug marker is enabled. The parser then checks
  bracket balance with a running depth counter.
- The **engine** runs the cleaned program. Its state is a tape of signed 8-bit
  cells (an `Int8Array`), a data pointer, an input cursor, an output buffer and
  an instruction pointer.
- The **runtime** merges options over defaults, caches the parse and run
  results, and turns a parse failure into a run failure.
- The **result helpers** and their text forms.

The repository holds the pipeline twice: the modular version under
`src/bf/`, and the legacy single-file copy `src/bf.ts` that the page uses.
The two share the same parser and engine-loop logic. Here
they share one definition, and `LegacyBf` adds what differs:

- the defaults, with the debug marker off;
- the constructor's option handling;
- the result class and its `toString`.

Modules, in dependency order:

| file | module | models |
|---|---|---|
| common_types.dfy | `CommonTypes` | result union, `isErrorResult`, thrown exceptions, promise outcomes |
| runtime_options.dfy | `RuntimeOptions` | EOF modes, settings, defaults, the option merge |
| eof_handlers.dfy | `EofHandlers` | the end-of-input handler table |
| result_util.dfy | `ResultUtil` | `stringifyResult`, `buildRunErrorFromParseError` |
| brackets.dfy | `Brackets` | reference definitions: bracket depth, balance, matching pairs |
| parser.dfy | `Parser` | `parseSource`, `areBracketsBalanced` |
| engine.dfy | `Engine` | `_BasicEngine`: constructor, one instruction (`Step`), the run loop |
| engine_properties.dfy | `EngineProperties` | per-instruction semantics, run invariants, parser–engine link |
| runtime.dfy | `Runtime` | `Runtime`: constructor, `withDefaultParserAndEngine`, `parse`, `run` |
| legacy.dfy | `LegacyBf` | `src/bf.ts`: `DefaultRuntimeOptions`, `assembleOpts`, `Runtime`, `RunResultImpl` |
| scenarios.dfy | `Scenarios` | concrete runs through the whole pipeline |

How the source's behaviour is expressed in Dafny terms:

- **Cells** are `Int8` values. Every store goes through `ToInt8`, the wrap
  modulo 256 that an `Int8Array` applies on assignment.
- **Input** is a sequence of UTF-16 code units. Indexing a string yields one
  code unit, and `codePointAt(0)` of a one-unit string is that unit.
- **Output** is a `string`. `.` appends the character whose code is the cell
  value. `String.fromCodePoint` throws a `RangeError` for a negative value or
  for an undefined cell; this is `Raised(InvalidCodePoint(..))`.
- **An empty tape** (`memoryCellCount` 0) is modelled as the code behaves:
  - `>` moves the pointer to -1;
  - reading the cell yields `undefined` (`None`), and stores to it are lost;
  - `[` falls through on it and `]` jumps on it.

  A negative cell count makes `new Int8Array` throw (`InvalidArrayLength`).
- **Non-termination.** A run is a pure `Step` repeated by `Execute` under a
  budget of `fuel` instructions. A budget that runs out gives `OutOfFuel`. A
  bracket scan that runs off either end of the program never terminates in
  the source; here it gives `Hangs` for the step and `Stuck` for the run. At
  the promise level both are `Pending`.
- **A crashed or unfinished engine** keeps its running flag set, as the
  source does.
- **Promise outcomes.** `run()` returns `Completion`: `Returned(v)` resolves,
  `Threw(e)` rejects, and `Pending` has not settled.
- **Runtime objects** are a readonly `Runtime` value plus an explicit `Cache`
  that `parse` and `run` take and return. The parser and the engine builder
  are function values, as in the source.

`run()` does not reuse a cached successful result. It returns only a cached
*failed* run (src/bf/Runtime.ts:56-57). After a successful parse, every other
call builds and runs a fresh engine (src/bf/Runtime.ts:59-60). The model
states this:

- `Runtime.SuccessIsRecomputed` states that a fresh engine runs each time;
- `Runtime.RunTwiceAgrees` shows that repeated results agree only because the
  engine is deterministic;
- `Runtime.BasicEngineNeverReusesFailedRun` shows that with the basic engine
  the cached-failed-run branch is dead, since that engine never returns a
  failed run.

## Model

| member | source | states |
|---|---|---|
| CommonTypes.IsErrorResult | src/bf/common_types.ts:15-17 | an absent result is not an error; a present one is an error exactly when it is a failure |
| RuntimeOptions.BuildSettingsFromOptions | src/bf/RuntimeOptions.ts:36-41 | every field present in the options takes the supplied value, every absent field the default, with no range check |
| RuntimeOptions.BuildRuntimeSettings | src/bf/RuntimeOptions.ts:21-34 | absent fields get cell count 30000, min 0, max 256, EOF mode ZERO and the debug marker on; each of the five present fields is kept as supplied |
| RuntimeOptions.MergeOfCompleteOptions | src/bf/RuntimeOptions.ts:36-41 | merging a complete settings record returns that record, whatever the defaults |
| RuntimeOptions.MergeOfNoOptions | src/bf/RuntimeOptions.ts:36-41 | merging empty options returns the defaults unchanged |
| RuntimeOptions.MergeIsIdempotent | src/bf/RuntimeOptions.ts:36-41 | merging the same options over an already merged record changes nothing |
| RuntimeOptions.MergeDoesNotValidate | src/bf/RuntimeOptions.ts:31-41 | any cell count, 0 or negative included, passes through the merge unchanged |
| EofHandlers.EofHandler | src/bf/_util.ts:12-16 | ZERO yields 0 and NEGATIVE_ONE yields -1 for any cell; NOP yields the cell itself; the table is total over the modes |
| EofHandlers.EofHandlerStable | src/bf/_util.ts:12-16 | every handler keeps a signed 8-bit cell in range, and a second application at end of input changes nothing |
| ResultUtil.StringifyResult | src/bf/util.ts:3-7 | a failure reads `ERROR: ` plus its message; a success reads `SUCCESS!`, followed by ` OUTPUT:` and a newline and the output only when it has an output field |
| ResultUtil.StringifyRunResult | src/bf/util.ts:3-7 | a run success reads `SUCCESS! OUTPUT:` and a newline and its output; a run failure reads `ERROR: ` plus its message |
| ResultUtil.StringifyParseResult | src/bf/util.ts:3-7 | a parse success, which has no output field, reads exactly `SUCCESS!` |
| ResultUtil.BuildRunErrorFromParseError | src/bf/util.ts:9-11 | a parse failure passes through as a run failure with the same message |
| ResultUtil.StringifyRunResultInjective | src/bf/util.ts:3-7 | distinct run results never read the same: the text determines success or failure and its payload |
| ResultUtil.DegradedFailureText | src/bf/util.ts:3-11 | a degraded parse failure is an error result and reads `ERROR: ` plus the parser's message |
| Brackets.CloserIsUnique | src/bf/Engine.ts:103-117 | an opening bracket has at most one matching closing bracket |
| Brackets.OpenerIsUnique | src/bf/Engine.ts:118-132 | a closing bracket has at most one matching opening bracket |
| Brackets.NetCounts | src/bf/Parser.ts:25-43 | the bracket depth of a text is its number of `[` minus its number of `]` |
| Brackets.NetIsDepth | src/bf/Engine.ts:103-132 | the depth the parser counts over a slice equals the depth the engine's scans count position by position |
| Parser.Clean | src/bf/Parser.ts:11-13 | the cleaned source is no longer than the source and holds only instruction characters, `#` only when the marker is enabled |
| Parser.CleanAppend | src/bf/Parser.ts:11-13 | cleaning distributes over concatenation, so kept characters stay in their original order |
| Parser.CleanCounts | src/bf/Parser.ts:11-13 | each instruction character survives exactly as often as it occurs; every other character is dropped |
| Parser.CleanKeepsInstructions | src/bf/Parser.ts:11-13 | a text made only of instruction characters is left unchanged |
| Parser.CleanIdempotent | src/bf/Parser.ts:11-13 | cleaning a cleaned source returns it unchanged |
| Parser.OctoMarkerSurvival | src/bf/Parser.ts:11-13 | `#` survives cleaning exactly when the marker is enabled and `#` occurs in the source |
| Parser.DepthScanMeaning | src/bf/Parser.ts:25-43 | the depth-counter loop accepts exactly when no prefix goes below depth zero and the whole text ends at depth zero |
| Parser.AreBracketsBalancedMeaning | src/bf/Parser.ts:25-43 | `areBracketsBalanced` accepts exactly the balanced texts |
| Parser.ParseSource | src/bf/Parser.ts:10-21 | the parse succeeds exactly when the cleaned source is balanced; a success carries the source unchanged and its cleaned form; a failure carries "Imbalanced brackets detected!" |
| Parser.DepthScanIgnoresDropped | src/bf/Parser.ts:28-41 | characters dropped by cleaning never change the depth counter's verdict |
| Parser.ParseVerdictIgnoresComments | src/bf/Parser.ts:10-16 | acceptance depends only on the brackets of the raw source, not on comment characters or the debug marker |
| Parser.BracketFreeAccepted | src/bf/Parser.ts:10-20 | a source without brackets is accepted under any settings, with its cleaned form |
| Parser.NegativePrefixFails | src/bf/Parser.ts:33-36 | a prefix of the cleaned source with more `]` than `[` makes the parse fail with the imbalance message |
| Parser.UnequalCountsFail | src/bf/Parser.ts:42 | different numbers of `[` and `]` in the source make the parse fail with the imbalance message |
| Engine.ToInt8 | src/bf/Engine.ts:46 | a stored value is congruent to the assigned one modulo 256 and lies in [-128, 127]; in-range values are stored as they are |
| Engine.InitialState | src/bf/Engine.ts:31-35 | a new engine has a zeroed tape of the configured length, all pointers at 0 and no output |
| Engine.Cell | src/bf/Engine.ts:85 | reading the tape yields the cell under the pointer, or undefined exactly when the pointer is off the tape |
| Engine.Store | src/bf/Engine.ts:96 | an assignment wraps the value into the current cell, leaves every other cell alone, and is lost off the tape |
| Engine.SeekClose | src/bf/Engine.ts:105-114 | where the forward scan stops lies inside the program, no earlier than the `[` it started from |
| Engine.SeekOpen | src/bf/Engine.ts:120-129 | where the backward scan stops lies no later than the `]` it started from |
| EngineProperties.SeekCloseDepth | src/bf/Engine.ts:105-114 | the forward scan stops at the first position where the bracket depth returns to zero, and runs off the end only when there is none |
| EngineProperties.SeekOpenDepth | src/bf/Engine.ts:120-129 | the backward scan stops at the nearest position where the bracket depth returns to zero, and runs off the start only when there is none |
| Engine.Step | src/bf/Engine.ts:62-137 | one instruction keeps the tape length, only extends the output and consumes at most one input unit; only `.` can throw and only a bracket can scan off the program (each instruction's exact effect is stated by the `EngineProperties` lemmas below) |
| Engine.Execute | src/bf/Engine.ts:59-138 | a run finishes exactly when the instruction pointer reaches the end of the program |
| Engine.NewBasicEngine | src/bf/Engine.ts:40-48 | construction throws exactly for a negative cell count; otherwise the engine is idle, holds the cleaned source, the input and EOF mode, and starts from the initial state |
| Engine.RunEngine | src/bf/Engine.ts:50-142 | a call while running throws "already running!"; otherwise the engine ends in the state the instruction loop reaches: a finished loop resolves with a success carrying its output and leaves the engine idle, a throwing instruction rejects with that exception, and an unfinished loop stays pending; in both of the last cases the engine stays marked running |
| Engine.RunBasicEngine | src/bf/Runtime.ts:59-60 | building throws for a negative cell count; otherwise the result is that of running a fresh, idle engine on the cleaned source, the input and the EOF mode from the initial state; it resolves only with a success |
| EngineProperties.StepPreservesValid | src/bf/Engine.ts:62-137 | one instruction keeps the tape length, the data pointer on the tape, the cursor within the input and the program pointer within the program |
| EngineProperties.ExecutePreservesValid | src/bf/Engine.ts:59-138 | every state a run reaches keeps those bounds |
| EngineProperties.PointerStaysOnTape | src/bf/Engine.ts:56-75 | with at least one cell, the data pointer stays in [0, cell count - 1] for the whole run |
| EngineProperties.PointerSaturates | src/bf/Engine.ts:66-75 | `>` and `<` move the pointer by one, stay put at the top and at 0 respectively, and change nothing else |
| EngineProperties.EmptyTapeEdges | src/bf/Engine.ts:66-89 | on an empty tape `>` moves the pointer to -1 and `<` back to 0, `+` and `-` only advance the program pointer, and `.` throws on the undefined cell |
| EngineProperties.CellArithmeticWraps | src/bf/Engine.ts:76-83 | `+` and `-` change only the current cell, by one with signed 8-bit wrap (127 + 1 = -128, -128 - 1 = 127) |
| EngineProperties.IncrementThenDecrementRestores | src/bf/Engine.ts:76-83 | `+` followed by `-` restores the tape exactly, wrap included |
| EngineProperties.ReadsInput | src/bf/Engine.ts:90-101 | `,` with unread input stores the next code unit wrapped to 8 bits and advances the cursor by one; at end of input it stores the EOF handler's value and leaves the cursor alone |
| EngineProperties.WritesOutput | src/bf/Engine.ts:84-89 | `.` appends the current cell's character; a negative or undefined cell throws |
| EngineProperties.OutputOnlyGrowsOnDot | src/bf/Engine.ts:65-137 | only `.` changes the output, and only by appending one character |
| EngineProperties.ExecuteOutputExtends | src/bf/Engine.ts:59-138 | the output of a run only grows: the starting output is a prefix of the final one |
| EngineProperties.OtherCharactersOnlyAdvance | src/bf/Engine.ts:133-137 | any non-instruction character, `#` included, only advances the program pointer |
| EngineProperties.SeekCloseStopsAtMatch | src/bf/Engine.ts:103-117 | when the forward scan from a `[` stops, it stops at the matching `]` |
| EngineProperties.SeekCloseNoneMeansNoMatch | src/bf/Engine.ts:103-117 | when the forward scan from a `[` runs off the end, that `[` has no matching `]` |
| EngineProperties.SeekCloseFindsMatch | src/bf/Engine.ts:103-117 | the forward scan from a `[` stops exactly at its matching `]` |
| EngineProperties.SeekOpenStopsAtMatch | src/bf/Engine.ts:118-132 | when the backward scan from a `]` stops, it stops at the matching `[` |
| EngineProperties.SeekOpenNoneMeansNoMatch | src/bf/Engine.ts:118-132 | when the backward scan from a `]` runs off the start, that `]` has no matching `[` |
| EngineProperties.SeekOpenFindsMatch | src/bf/Engine.ts:118-132 | the backward scan from a `]` stops exactly at its matching `[` |
| EngineProperties.BalancedCloseExists | src/bf/Engine.ts:103-117 | in a balanced program the forward scan from any `[` stops inside the program |
| EngineProperties.BalancedOpenExists | src/bf/Engine.ts:118-132 | in a balanced program the backward scan from any `]` stops inside the program |
| EngineProperties.OpenBracketJumps | src/bf/Engine.ts:103-117 | a `[` with a matching `]`, on a zero cell, makes the instruction after that `]` the next one executed; on any other cell it falls through (for a `[` without a match, see `BracketFallsThroughOrHangs`) |
| EngineProperties.CloseBracketJumps | src/bf/Engine.ts:118-132 | a `]` with a matching `[`, on a nonzero cell, makes the instruction after that `[` the next one executed; on a zero cell it falls through (for a `]` without a match, see `BracketFallsThroughOrHangs`) |
| EngineProperties.BracketFallsThroughOrHangs | src/bf/Engine.ts:103-132 | for every bracket, matched or not, `[` on a cell other than zero and `]` on a zero cell fall through; a bracket step hangs exactly when it would jump and has no partner |
| EngineProperties.HangingStepIsStuck | src/bf/Engine.ts:59-138 | a step that hangs ends the run as `Stuck` in the state before it, whatever budget remains |
| EngineProperties.BalancedNeverHangs | src/bf/Engine.ts:103-132 | in a balanced program no instruction hangs in a scan, and the program pointer stays within the program |
| EngineProperties.BalancedExecuteNeverStuck | src/bf/Engine.ts:59-138 | a run of a balanced program never gets stuck in a bracket scan |
| EngineProperties.ExecuteMoreFuel | src/bf/Engine.ts:59-138 | a run that ends within some budget ends the same way under any larger budget |
| EngineProperties.AcceptedProgramsRunSafely | src/bf/Runtime.ts:53-60 | for any program the parser accepts and any tape the engine can allocate, the engine never hangs in a scan and keeps the cursor within the input and the program pointer within the program; with at least one cell it also keeps the data pointer on the tape |
| EngineProperties.RerunAfterFinish | src/bf/Engine.ts:50-56 | a finished engine run again returns the same output at once |
| EngineProperties.RerunWhileRunningThrows | src/bf/Engine.ts:51-54 | an engine whose run threw or has not finished throws "already running!" on a second run |
| Runtime.EmptyCache | src/bf/Runtime.ts:39-40 | a new runtime has neither parsed nor ran |
| Runtime.HasParsed | src/bf/Runtime.ts:39 | `hasParsed` is true exactly when a parse result, successful or not, is cached |
| Runtime.HasRan | src/bf/Runtime.ts:40 | `hasRan` is true exactly when a run result, successful or not, is cached |
| Runtime.CacheFlags | src/bf/Runtime.ts:39-62 | a new runtime has neither flag; `parse()` raises `hasParsed` and leaves `hasRan` alone; `run()` always leaves `hasParsed` raised, raises `hasRan` whenever it resolves, and never lowers it |
| Runtime.New | src/bf/Runtime.ts:15-23 | the settings are computed once, at construction, by merging the options over the defaults |
| Runtime.WithDefaultParserAndEngine | src/bf/Runtime.ts:25-37 | the basic parser and engine, an empty input when none is given, and the default settings when no options are given |
| Runtime.Parse | src/bf/Runtime.ts:43-46 | `parse()` always calls the parser and caches what it returns |
| Runtime.Run | src/bf/Runtime.ts:48-63 | after `run()` a parse is cached, and a resolved run is also the cached run result |
| Runtime.ParsesOnce | src/bf/Runtime.ts:49-50 | `run()` calls the parser only when nothing is cached; a cached parse is kept and no parser is consulted |
| Runtime.ParseFailureShortCircuits | src/bf/Runtime.ts:53-54 | on a failed parse `run()` caches and returns a failed run with the parser's message, and no engine is involved |
| Runtime.CachedFailureReturned | src/bf/Runtime.ts:56-57 | after a successful parse a cached failed run is returned as it is, without an engine |
| Runtime.SuccessIsRecomputed | src/bf/Runtime.ts:59-62 | otherwise every `run()` builds and runs a fresh engine from the cached parse and overwrites the cached run |
| Runtime.RunTwiceAgrees | src/bf/Runtime.ts:48-63 | a second `run()` returns what the first returned, and `hasRan` is true after the first |
| Runtime.BasicEngineNeverReusesFailedRun | src/bf/Runtime.ts:53-60 | with the basic parser and engine a failed run is cached only next to a failed parse, so the cached-failed-run branch is never taken |
| Runtime.FreshDefaultRun | src/bf/Runtime.ts:48-62 | a fresh default runtime's `run()` either fails with the parser's message, caching both results, or returns what building and running the basic engine returns |
| Runtime.DefaultRuntimeKeepsOctoMarker | src/bf/RuntimeOptions.ts:21-27 | the modular runtime's defaults enable the debug marker and give 30000 cells |
| LegacyBf.IsErrorResult | src/bf.ts:272-274 | an absent result is not an error; a present one is an error exactly when its success flag is false |
| LegacyBf.BuildAndRun | src/bf.ts:48-50 | `Engine.build` throws for a negative cell count and otherwise runs a fresh, idle engine on the cleaned source from the initial state; a resolved result is a success with an empty message |
| LegacyBf.AssembleOpts | src/bf.ts:217-219 | options are merged over the legacy defaults, under which the debug marker is off |
| LegacyBf.FromParseResult | src/bf.ts:286-291 | a parse failure becomes a failed result with output "<parse failure!>" and the parser's message |
| LegacyBf.ToString | src/bf.ts:293-295 | the output, a newline, then `SUCCESS!` or `ERROR: ` plus the message |
| LegacyBf.RunEngine | src/bf.ts:52-144 | the legacy engine behaves as the modular one; a success is wrapped as a result with the output and an empty message |
| LegacyBf.NewRuntime | src/bf.ts:226-232 | absent options give the defaults object itself; present ones are merged over it; the input defaults to empty |
| LegacyBf.Parse | src/bf.ts:238-241 | `parse()` calls the parser with the runtime's options and caches its result |
| LegacyBf.Run | src/bf.ts:243-259 | after `run()` a parse is cached, and a resolved run is also the cached run result |
| LegacyBf.AgreesWithModularRuntime | src/bf.ts:243-259 | from a fresh object the legacy `run()` returns what the modular runtime with the basic parser and engine returns on the same settings, up to the result class |
| LegacyBf.MirrorsModularRuntime | src/bf.ts:238-259 | from any legacy cache that mirrors a modular one (same parse; a run result in both or neither, the legacy one being the modular one in the result class), `parse()` and `run()` return what the modular runtime with the basic parser and engine returns and leave mirroring caches; so parse-once, the failure short-circuit, the cached-failure return and the re-run on success all hold for every call |
| LegacyBf.FreshCachesMirror | src/bf.ts:226-232 | a new legacy object's empty cache mirrors a new modular object's |
| LegacyBf.PageStripsOctoMarker | src/bf.ts:203-209 | on the page path the debug marker is off and `#` never reaches the engine |
| LegacyBf.SuccessShowsOutput | src/bf.ts:243-259 | from any cache, a successful legacy run has an empty error message and reads as its output, a newline and `SUCCESS!` |
| LegacyBf.PageOutput | src/index.ts:45-53 | one click appends the text form of a fresh default legacy runtime's `run()` result followed by a line break, and rejects or stays pending exactly when that run does |
| LegacyBf.PageShowsParseFailure | src/bf.ts:286-295 | a rejected program shows "<parse failure!>", a newline, `ERROR: ` and the parser's message on the page |
| Scenarios.EchoSuccessorRun | src/bf/Engine.ts:76-101 | the engine on `,+.` with input `A` finishes within three instructions with output `B` |
| Scenarios.EchoSuccessor | src/bf/Runtime.ts:48-62 | `,+.` with input `A` resolves through the modular runtime with output `B` |
| Scenarios.LoneCloserRejected | src/bf/Parser.ts:15-16 | a lone `]` is rejected with the imbalance message under any settings |
| Scenarios.LoneCloserOnThePage | src/bf.ts:178-179 | a lone `]` shows "<parse failure!>" and "ERROR: Imbalanced brackets detected!" on the page |
| Scenarios.NegativeCellRun | src/bf/Engine.ts:80-87 | the engine on `-.` throws at the `.` on code point -1 |
| Scenarios.NegativeCellCrashes | src/bf/Runtime.ts:59-60 | `-.` throws on the code point -1 and leaves no run result cached |

## Left out

- The per-instruction `await sleep(0)` and the other promise plumbing are not
  modelled. They only yield to the event loop. A run is a pure step function
  under an instruction budget, and a promise outcome is a `Completion`.
- Engine.Execute: the budget is an explicit bound on executed instructions. A
  program that runs forever is only ever seen as `OutOfFuel` for each budget.
  `ExecuteMoreFuel` shows that larger budgets never change a finished outcome.
- Unicode beyond code units: input is a sequence of UTF-16 code units. The
  output character for a cell value `v` is the Dafny `char` with code `v`. Cells
  never exceed 127, so surrogate pairs cannot arise.
- Non-integer and very large cell counts: a cell count is a Dafny `int`, so a
  fractional `memoryCellCount` cannot be expressed. `new Int8Array` truncates
  a fractional length toward zero and rejects only a truncated length that is
  negative or too large. The model has the negative-length rejection but not
  the oversized one.
- The text of thrown errors: `AlreadyRunning`, `InvalidCodePoint` and
  `InvalidArrayLength` stand for the `Error` and `RangeError` objects.
  Their message strings are not modelled.
- `memoryCellMinValue` and `memoryCellMaxValue` are carried through the
  settings but never read, as in the source.
- `Object.assign` copies fields that are present but explicitly `undefined`.
  Options here are `Option` fields, so an absent field always keeps its
  default.
- TypeScript type-level machinery (`Expand`, `OptionsFromSettings`,
  `EngineBuilder`, `SuccessPart`/`ErrorPart`) has no runtime behaviour and is
  not modelled.
- build.ts, the page's DOM wiring in src/index.ts, and the example programs in
  src/examples.ts are not part of this model. `LegacyBf.PageOutput` models
  only the text that one click of the run button appends.
- The example programs' expected outputs, such as Hello World, are not stated
  as lemmas. Evaluating those runs symbolically costs thousands of steps. The
  scenarios use short programs instead.
- LegacyBf.Run: its own contract states only what every completed call leaves
  cached. Its branch-by-branch behaviour, on every call and not only the
  first, is stated by `LegacyBf.MirrorsModularRuntime`, which carries the
  lemmas on `Runtime.Run` over to it.

=== FILE: brackets.dfy ===
/** Reference definitions of bracket structure, shared by the parser's balance
    check and the engine's bracket scans: the bracket depth of a text, balance
    and the matching-pair relation. */
module Brackets {

  /** How one character moves the bracket depth. */
  function Delta(c: char): int {
    if c == '[' then 1 else if c == ']' then -1 else 0
  }

  /** Net bracket depth of a text: opening minus closing brackets. */
  function Net(s: string): int
    decreases |s|
  {
    if s == [] then 0 else Delta(s[0]) + Net(s[1..])
  }

  lemma {:induction false} NetAppend(x: string, y: string)
    ensures Net(x + y) == Net(x) + Net(y)
    decreases |x|
  {
    if x == [] {
      assert x + y == y;
    } else {
      assert (x + y)[1..] == x[1..] + y;
      NetAppend(x[1..], y);
    }
  }

  /** The depth is the number of `[` minus the number of `]`. */
  lemma {:induction false} NetCounts(s: string)
    ensures Net(s) == multiset(s)['['] as int - multiset(s)[']'] as int
    decreases |s|
  {
    if s != [] {
      assert s == [s[0]] + s[1..];
      assert multiset(s) == multiset([s[0]]) + multiset(s[1..]);
      NetCounts(s[1..]);
    }
  }

  lemma NetSplit(s: string, a: nat, b: nat, c: nat)
    requires a <= b <= c <= |s|
    ensures Net(s[a..c]) == Net(s[a..b]) + Net(s[b..c])
  {
    assert s[a..c] == s[a..b] + s[b..c];
    NetAppend(s[a..b], s[b..c]);
  }

  /** Depth of the stretch `s[a..b]`, counted by index: the form the
      engine's bracket scans walk. */
  function Depth(s: string, a: nat, b: nat): int
    requires a <= b <= |s|
    decreases b - a
  {
    if a == b then 0 else Depth(s, a, b - 1) + Delta(s[b - 1])
  }

  lemma {:induction false} DepthSplit(s: string, a: nat, b: nat, c: nat)
    requires a <= b <= c <= |s|
    ensures Depth(s, a, c) == Depth(s, a, b) + Depth(s, b, c)
    decreases c - b
  {
    if b < c {
      DepthSplit(s, a, b, c - 1);
    }
  }

  /** Removing the first character of a stretch takes its delta off the
      depth. */
  lemma DepthFirst(s: string, a: nat, b: nat)
    requires a < b <= |s|
    ensures Depth(s, a, b) == Delta(s[a]) + Depth(s, a + 1, b)
  {
    DepthSplit(s, a, a + 1, b);
  }

  /** Both ways of counting agree on every stretch. */
  lemma {:induction false} NetIsDepth(s: string, a: nat, b: nat)
    requires a <= b <= |s|
    ensures Net(s[a..b]) == Depth(s, a, b)
    decreases b - a
  {
    if a < b {
      NetIsDepth(s, a, b - 1);
      NetSplit(s, a, b - 1, b);
      assert s[b-1..b] == [s[b-1]];
      assert s[b-1..b][1..] == [];
    } else {
      assert s[a..b] == [];
    }
  }

  /** Balanced: no prefix closes more brackets than it opened, and the whole
      text closes every bracket it opens. */
  ghost predicate Balanced(s: string) {
    && (forall k | 0 <= k <= |s| :: Net(s[..k]) >= 0)
    && Net(s) == 0
  }

  /** `s[i]` is a `[` and `s[j]` is the `]` that closes it: the stretch from
      `i` to `j`, both included, has depth 0 and every shorter non-empty
      stretch from `i` is still open. */
  ghost predicate Matches(s: string, i: int, j: int) {
    && 0 <= i < j < |s|
    && s[i] == '['
    && s[j] == ']'
    && Depth(s, i, j + 1) == 0
    && (forall k | i < k <= j :: Depth(s, i, k) > 0)
  }

  /** An opening bracket has at most one partner. */
  lemma CloserIsUnique(s: string, i: int, j1: int, j2: int)
    requires Matches(s, i, j1) && Matches(s, i, j2)
    ensures j1 == j2
  {
  }

  /** A closing bracket has at most one partner. */
  lemma OpenerIsUnique(s: string, i1: int, i2: int, j: int)
    requires Matches(s, i1, j) && Matches(s, i2, j)
    ensures i1 == i2
  {
    if i1 < i2 {
      DepthSplit(s, i1, i2, j + 1);
    } else if i2 < i1 {
      DepthSplit(s, i2, i1, j + 1);
    }
  }
}

=== FILE: common_types.dfy ===
/** Tagged results, thrown exceptions and asynchronous completions shared by
    every component of the interpreter pipeline. */
module CommonTypes {

  datatype Option<+T> = None | Some(value: T) {

    /** The wrapped value, or `default` when there is none (the `??` operator). */
    function GetOr(default: T): T {
      match this
      case Some(v) => v
      case None => default
    }
  }

  /** A tagged success/failure value: a success carries a payload, a failure a
      human-readable message and nothing else. */
  datatype Result<+T> = Success(value: T) | Failure(errorMessage: string)

  /** What the parser hands to the engine. */
  datatype ParsedCode = ParsedCode(originalSource: string, cleanedSource: string)

  type ParseResult = Result<ParsedCode>

  /** A run result; the success payload is the program's output text. */
  type RunResult = Result<string>

  /** Exceptions that can escape an engine run and reject its promise.
      `AlreadyRunning` is the engine's own `Error("already running!")`; the
      other two are range errors raised by the host for an invalid code point
      passed to `String.fromCodePoint` (the cell value, or `None` for an
      undefined cell) and for a negative typed-array length. */
  datatype Exception = AlreadyRunning | InvalidCodePoint(cell: Option<int>) | InvalidArrayLength(length: int)

  /** How an asynchronous call ends: its promise resolves with a value, rejects
      with an exception, or has not settled (yet, or ever). */
  datatype Completion<+T> = Returned(value: T) | Threw(exception: Exception) | Pending

  /** True exactly for a present, failed result; an absent result is no error. */
  function IsErrorResult<T>(obj: Option<Result<T>>): (b: bool)
    ensures obj.None? ==> !b
    ensures obj.Some? ==> (b <==> !obj.value.Success?)
  {
    obj.Some? && obj.value.Failure?
  }
}

=== FILE: engine.dfy ===
/** The basic engine: a state machine over a tape of signed 8-bit cells, a
    data pointer, an input cursor, an output buffer and an instruction
    pointer, stepped one instruction at a time. */
module Engine {
  import opened CommonTypes
  import opened RuntimeOptions
  import opened EofHandlers
  import opened Brackets

  /** A cell of an `Int8Array`. */
  type Int8 = x: int | -128 <= x < 128

  /** One UTF-16 code unit of the input text. */
  type CodeUnit = x: int | 0 <= x < 0x1_0000

  /** The value an `Int8Array` stores when assigned `x`: `x` reduced to the
      signed 8-bit range, wrapping modulo 256. */
  function ToInt8(x: int): (r: Int8)
    ensures (r - x) % 256 == 0
    ensures -128 <= x < 128 ==> r == x
  {
    (x + 128) % 256 - 128
  }

  /** What a run is bound to and never changes: the cleaned program, the input
      text and the EOF mode. */
  datatype Machine = Machine(src: string, stdin: seq<CodeUnit>, eofMode: EofMode)

  /** The mutable part of a run. The data pointer is an `int` because with an
      empty tape `>` moves it to -1. */
  datatype ExecState = ExecState(tape: seq<Int8>, dp: int, cursor: nat, ip: nat, stdout: string)

  datatype StepResult =
    | Next(state: ExecState)   // the instruction completed
    | Raised(exception: Exception)   // the instruction threw
    | Hangs   // a bracket scan ran off the program and loops forever

  function InitialState(cellCount: nat): (s: ExecState)
    ensures |s.tape| == cellCount && s.dp == 0 && s.cursor == 0 && s.ip == 0 && s.stdout == ""
    ensures forall k | 0 <= k < cellCount :: s.tape[k] == 0
  {
    ExecState(seq(cellCount, _ => 0), 0, 0, 0, "")
  }

  /** The cell under the data pointer, or `None` (undefined) when the pointer
      is outside the tape. */
  function Cell(s: ExecState): (c: Option<Int8>)
    ensures c.Some? <==> 0 <= s.dp < |s.tape|
    ensures c.Some? ==> c.value == s.tape[s.dp]
  {
    if 0 <= s.dp < |s.tape| then Some(s.tape[s.dp]) else None
  }

  /** Assigns `v` to the current cell; an assignment outside the tape is
      silently ignored. */
  function Store(s: ExecState, v: int): (tape: seq<Int8>)
    ensures |tape| == |s.tape|
    ensures forall k | 0 <= k < |tape| && k != s.dp :: tape[k] == s.tape[k]
    ensures 0 <= s.dp < |tape| ==> tape[s.dp] == ToInt8(v)
  {
    if 0 <= s.dp < |s.tape| then s.tape[s.dp := ToInt8(v)] else s.tape
  }

  /** The forward scan of `[`: with `open` brackets still open and `pos` the
      next position to read, advance until the depth reaches zero and yield
      the position of the last character read. `None` means the scan runs
      past the end of the program, where it never terminates. */
  function SeekClose(src: string, pos: nat, open: nat): (r: Option<nat>)
    requires 0 < pos <= |src|
    ensures r.Some? ==> pos <= r.value + 1 && r.value < |src|
    decreases |src| - pos
  {
    if open == 0 then Some(pos - 1)
    else if pos == |src| then None
    else SeekClose(src, pos + 1, open + Delta(src[pos]))
  }

  /** The backward scan of `]`: from position `ip` with `open` brackets still
      unmatched, retreat until the depth reaches zero. `None` means the scan
      runs past the start of the program, where it never terminates. */
  function SeekOpen(src: string, ip: nat, open: nat): (r: Option<nat>)
    requires ip < |src|
    ensures r.Some? ==> r.value <= ip
    decreases ip
  {
    if open == 0 then Some(ip)
    else if ip == 0 then None
    else SeekOpen(src, ip - 1, open - Delta(src[ip - 1]))
  }

  /** Executes the instruction under the instruction pointer. */
  function Step(m: Machine, s: ExecState): (r: StepResult)
    requires s.ip < |m.src|
    ensures r.Next? ==> |r.state.tape| == |s.tape|
    ensures r.Next? ==> s.stdout <= r.state.stdout
    ensures r.Next? ==> s.cursor <= r.state.cursor <= s.cursor + 1
    ensures r.Raised? ==> m.src[s.ip] == '.'
    ensures r.Hangs? ==> m.src[s.ip] in "[]"
  {
    var next := s.(ip := s.ip + 1);
    match m.src[s.ip]
    case '>' => Next(next.(dp := if s.dp + 1 > |s.tape| - 1 then |s.tape| - 1 else s.dp + 1))
    case '<' => Next(next.(dp := if s.dp - 1 < 0 then 0 else s.dp - 1))
    case '+' =>
      (match Cell(s)
       case Some(v) => Next(next.(tape := Store(s, v + 1)))
       case None => Next(next))
    case '-' =>
      (match Cell(s)
       case Some(v) => Next(next.(tape := Store(s, v - 1)))
       case None => Next(next))
    case '.' =>
      (match Cell(s)
       case Some(v) => if v < 0 then Raised(InvalidCodePoint(Some(v))) else Next(next.(stdout := s.stdout + [v as char]))
       case None => Raised(InvalidCodePoint(None)))
    case ',' =>
      if s.cursor < |m.stdin| then
        Next(next.(cursor := s.cursor + 1, tape := Store(s, m.stdin[s.cursor])))
      else
        (match Cell(s)
         case Some(v) => Next(next.(tape := Store(s, EofHandler(m.eofMode, v))))
         case None => Next(next))
    case '[' =>
      if Cell(s) == Some(0) then
        (match SeekClose(m.src, s.ip + 1, 1)
         case Some(j) => Next(s.(ip := j + 1))
         case None => Hangs)
      else Next(next)
    case ']' =>
      if Cell(s) != Some(0) then
        (match SeekOpen(m.src, s.ip, 1)
         case Some(i) => Next(s.(ip := i + 1))
         case None => Hangs)
      else Next(next)
    case _ => Next(next)
  }

  datatype Outcome =
    | Finished(state: ExecState)   // the instruction pointer reached the end
    | Crashed(exception: Exception, state: ExecState)
    | OutOfFuel(state: ExecState)   // the step budget ran out first
    | Stuck(state: ExecState)   // a bracket scan loops forever

  /** The run loop, bounded by `fuel` executed instructions. */
  function Execute(m: Machine, s: ExecState, fuel: nat): (r: Outcome)
    ensures r.Finished? <==> r.state.ip >= |m.src|
    decreases fuel
  {
    if s.ip >= |m.src| then Finished(s)
    else if fuel == 0 then OutOfFuel(s)
    else
      match Step(m, s)
      case Next(s') => Execute(m, s', fuel - 1)
      case Raised(e) => Crashed(e, s)
      case Hangs => Stuck(s)
  }

  /** An engine instance: its machine, whether a run is in progress, and the
      state its fields hold. */
  datatype BasicEngine = BasicEngine(machine: Machine, running: bool, state: ExecState)

  /** The constructor: allocates the zeroed tape and picks the EOF handler. A
      negative cell count makes the typed-array allocation throw. */
  function NewBasicEngine(parserOutput: ParsedCode, options: Settings, stdin: seq<CodeUnit>): (r: Completion<BasicEngine>)
    ensures options.memoryCellCount < 0 <==> r.Threw?
    ensures r.Threw? ==> r.exception == InvalidArrayLength(options.memoryCellCount)
    ensures r.Returned? ==> && !r.value.running
                            && r.value.machine == Machine(parserOutput.cleanedSource, stdin, options.eofMode)
                            && r.value.state == InitialState(options.memoryCellCount)
  {
    if options.memoryCellCount < 0 then Threw(InvalidArrayLength(options.memoryCellCount))
    else Returned(BasicEngine(Machine(parserOutput.cleanedSource, stdin, options.eofMode), false,
                              InitialState(options.memoryCellCount)))
  }

  /** `run()` on an instance, with a budget of `fuel` instructions. A call while
      a run is in progress throws; a run that throws or does not finish leaves
      the instance marked as running. */
  function RunEngine(e: BasicEngine, fuel: nat): (r: (BasicEngine, Completion<RunResult>))
    ensures e.running ==> r == (e, Threw(AlreadyRunning))
    ensures r.1.Returned? ==> && r.1.value == Success(r.0.state.stdout)
                              && !r.0.running
                              && r.0.state.ip >= |e.machine.src|
    ensures r.0.machine == e.machine
    ensures !e.running ==> r.0.state == Execute(e.machine, e.state, fuel).state
    ensures !e.running && Execute(e.machine, e.state, fuel).Finished? ==>
              r.1 == Returned(Success(Execute(e.machine, e.state, fuel).state.stdout))
    ensures !e.running && Execute(e.machine, e.state, fuel).Crashed? ==>
              r.1 == Threw(Execute(e.machine, e.state, fuel).exception) && r.0.running
    ensures !e.running && (Execute(e.machine, e.state, fuel).OutOfFuel? || Execute(e.machine, e.state, fuel).Stuck?) ==>
              r.1 == Pending && r.0.running
  {
    if e.running then (e, Threw(AlreadyRunning))
    else
      match Execute(e.machine, e.state, fuel)
      case Finished(s) => (e.(running := false, state := s), Returned(Success(s.stdout)))
      case Crashed(x, s) => (e.(running := true, state := s), Threw(x))
      case OutOfFuel(s) => (e.(running := true, state := s), Pending)
      case Stuck(s) => (e.(running := true, state := s), Pending)
  }

  /** The engine builder: construct a fresh instance and run it. */
  function RunBasicEngine(parsed: ParsedCode, options: Settings, stdin: seq<CodeUnit>, fuel: nat): (r: Completion<RunResult>)
    ensures options.memoryCellCount < 0 ==> r == Threw(InvalidArrayLength(options.memoryCellCount))
    ensures options.memoryCellCount >= 0 ==>
              r == RunEngine(BasicEngine(Machine(parsed.cleanedSource, stdin, options.eofMode), false,
                                         InitialState(options.memoryCellCount)), fuel).1
    ensures r.Returned? ==> r.value.Success?
  {
    match NewBasicEngine(parsed, options, stdin)
    case Returned(e) => RunEngine(e, fuel).1
    case Threw(x) => Threw(x)
    case Pending => Pending
  }
}

=== FILE: engine_properties.dfy ===
/** What the engine guarantees: per-instruction semantics, the invariants a run
    keeps, and the link between the parser's balance check and the engine's
    bracket scans. */
module EngineProperties {
  import opened CommonTypes
  import opened RuntimeOptions
  import opened EofHandlers
  import opened Brackets
  import opened Parser
  import opened Engine

  /** The shape every state of a run keeps: the tape never changes length, the
      data pointer stays on the tape (or in {-1, 0} for an empty tape), the
      input cursor never passes the end of the input and the instruction
      pointer never passes the end of the program. */
  predicate Valid(m: Machine, cellCount: nat, s: ExecState) {
    && |s.tape| == cellCount
    && (if cellCount == 0 then -1 <= s.dp <= 0 else 0 <= s.dp < cellCount)
    && s.cursor <= |m.stdin|
    && s.ip <= |m.src|
  }

  lemma StepPreservesValid(m: Machine, cellCount: nat, s: ExecState)
    requires Valid(m, cellCount, s) && s.ip < |m.src| && Step(m, s).Next?
    ensures Valid(m, cellCount, Step(m, s).state)
  {
  }

  lemma {:induction false} ExecutePreservesValid(m: Machine, cellCount: nat, s: ExecState, fuel: nat)
    requires Valid(m, cellCount, s)
    ensures Valid(m, cellCount, Execute(m, s, fuel).state)
    decreases fuel
  {
    if s.ip < |m.src| && fuel > 0 && Step(m, s).Next? {
      StepPreservesValid(m, cellCount, s);
      ExecutePreservesValid(m, cellCount, Step(m, s).state, fuel - 1);
    }
  }

  /** With at least one cell the data pointer of every state a run reaches is
      on the tape. */
  lemma PointerStaysOnTape(m: Machine, cellCount: nat, fuel: nat)
    requires cellCount >= 1
    ensures 0 <= Execute(m, InitialState(cellCount), fuel).state.dp < cellCount
  {
    ExecutePreservesValid(m, cellCount, InitialState(cellCount), fuel);
  }

  /** `>` and `<` move the pointer by one and saturate at the tape ends; nothing
      else changes. */
  lemma PointerSaturates(m: Machine, s: ExecState)
    requires s.ip < |m.src| && m.src[s.ip] in "<>" && 0 <= s.dp < |s.tape|
    ensures Step(m, s).Next?
    ensures Step(m, s).state == s.(ip := s.ip + 1, dp := Step(m, s).state.dp)
    ensures m.src[s.ip] == '>' ==>
              Step(m, s).state.dp == if s.dp == |s.tape| - 1 then s.dp else s.dp + 1
    ensures m.src[s.ip] == '<' ==>
              Step(m, s).state.dp == if s.dp == 0 then 0 else s.dp - 1
  {
  }

  /** On an empty tape (`memoryCellCount` 0) the clamps meet: `>` moves the
      pointer to -1, one below the tape, and `<` back to 0; `+` and `-` find no
      cell and only advance, and `.` throws on the undefined cell. */
  lemma EmptyTapeEdges(m: Machine, s: ExecState)
    requires s.ip < |m.src| && |s.tape| == 0 && -1 <= s.dp <= 0
    ensures m.src[s.ip] == '>' ==> Step(m, s) == Next(s.(ip := s.ip + 1, dp := -1))
    ensures m.src[s.ip] == '<' ==> Step(m, s) == Next(s.(ip := s.ip + 1, dp := 0))
    ensures m.src[s.ip] in "+-" ==> Step(m, s) == Next(s.(ip := s.ip + 1))
    ensures m.src[s.ip] == '.' ==> Step(m, s) == Raised(InvalidCodePoint(None))
  {
  }

  /** `+` and `-` change the current cell by one with signed 8-bit wrap-around
      (127 + 1 = -128, -128 - 1 = 127) and leave every other cell alone. */
  lemma CellArithmeticWraps(m: Machine, s: ExecState)
    requires s.ip < |m.src| && m.src[s.ip] in "+-" && 0 <= s.dp < |s.tape|
    ensures Step(m, s).Next?
    ensures Step(m, s).state == s.(ip := s.ip + 1, tape := Step(m, s).state.tape)
    ensures |Step(m, s).state.tape| == |s.tape|
    ensures forall k | 0 <= k < |s.tape| && k != s.dp :: Step(m, s).state.tape[k] == s.tape[k]
    ensures m.src[s.ip] == '+' ==>
              Step(m, s).state.tape[s.dp] == if s.tape[s.dp] == 127 then -128 else s.tape[s.dp] + 1
    ensures m.src[s.ip] == '-' ==>
              Step(m, s).state.tape[s.dp] == if s.tape[s.dp] == -128 then 127 else s.tape[s.dp] - 1
  {
  }

  /** `-` undoes `+`: the pair leaves the state as it was, apart from the
      instruction pointer. */
  lemma IncrementThenDecrementRestores(m: Machine, s: ExecState)
    requires s.ip + 1 < |m.src| && m.src[s.ip] == '+' && m.src[s.ip + 1] == '-'
    ensures Step(m, s).Next?
    ensures Step(m, Step(m, s).state).Next?
    ensures Step(m, Step(m, s).state).state == s.(ip := s.ip + 2)
  {
    var t := Step(m, s).state;
    if 0 <= s.dp < |s.tape| {
      var v: int := s.tape[s.dp];
      assert t.tape[s.dp] == ToInt8(v + 1);
      assert ToInt8(ToInt8(v + 1) - 1) == v;
      assert Step(m, t).state.tape == s.tape;
    }
  }

  /** `,` with unread input stores the next code unit reduced to a signed
      byte and advances the cursor by one; at end of input it stores what
      the EOF handler makes of the current cell and keeps the cursor. */
  lemma ReadsInput(m: Machine, s: ExecState)
    requires s.ip < |m.src| && m.src[s.ip] == ','
    ensures Step(m, s).Next?
    ensures Step(m, s).state == s.(ip := s.ip + 1, cursor := Step(m, s).state.cursor, tape := Step(m, s).state.tape)
    ensures |Step(m, s).state.tape| == |s.tape|
    ensures forall k | 0 <= k < |s.tape| && k != s.dp :: Step(m, s).state.tape[k] == s.tape[k]
    ensures s.cursor < |m.stdin| ==> Step(m, s).state.cursor == s.cursor + 1
    ensures s.cursor < |m.stdin| && 0 <= s.dp < |s.tape| ==>
              Step(m, s).state.tape[s.dp] == ToInt8(m.stdin[s.cursor])
    ensures s.cursor >= |m.stdin| ==> Step(m, s).state.cursor == s.cursor
    ensures s.cursor >= |m.stdin| && 0 <= s.dp < |s.tape| ==>
              Step(m, s).state.tape[s.dp] == EofHandler(m.eofMode, s.tape[s.dp])
  {
    if s.cursor >= |m.stdin| && 0 <= s.dp < |s.tape| {
      EofHandlerStable(m.eofMode, s.tape[s.dp]);
    }
  }

  /** `.` appends the character of a non-negative cell and nothing else
      changes; a negative or undefined cell makes `String.fromCodePoint`
      throw. */
  lemma WritesOutput(m: Machine, s: ExecState)
    requires s.ip < |m.src| && m.src[s.ip] == '.'
    ensures Cell(s).Some? && Cell(s).value >= 0 ==>
              Step(m, s) == Next(s.(ip := s.ip + 1, stdout := s.stdout + [Cell(s).value as char]))
    ensures Cell(s).Some? && Cell(s).value < 0 ==> Step(m, s) == Raised(InvalidCodePoint(Some(Cell(s).value)))
    ensures Cell(s).None? ==> Step(m, s) == Raised(InvalidCodePoint(None))
  {
  }

  /** Only `.` touches the output, and only by appending. */
  lemma OutputOnlyGrowsOnDot(m: Machine, s: ExecState)
    requires s.ip < |m.src| && Step(m, s).Next?
    ensures m.src[s.ip] != '.' ==> Step(m, s).state.stdout == s.stdout
    ensures m.src[s.ip] == '.' ==>
              && |Step(m, s).state.stdout| == |s.stdout| + 1
              && Step(m, s).state.stdout[..|s.stdout|] == s.stdout
  {
  }

  /** A run never takes anything back from the output. */
  lemma {:induction false} ExecuteOutputExtends(m: Machine, s: ExecState, fuel: nat)
    ensures s.stdout <= Execute(m, s, fuel).state.stdout
    decreases fuel
  {
    if s.ip < |m.src| && fuel > 0 && Step(m, s).Next? {
      OutputOnlyGrowsOnDot(m, s);
      ExecuteOutputExtends(m, Step(m, s).state, fuel - 1);
    }
  }

  /** `#` and every character outside the instruction set only advance the
      instruction pointer. */
  lemma OtherCharactersOnlyAdvance(m: Machine, s: ExecState)
    requires s.ip < |m.src| && m.src[s.ip] !in "<>+-.,[]"
    ensures Step(m, s) == Next(s.(ip := s.ip + 1))
  {
  }

  /** The forward scan stops at the first position where the depth, counted
      from `open`, returns to zero, and runs off the end only when there is
      none. */
  lemma {:induction false} SeekCloseDepth(src: string, pos: nat, open: nat)
    requires 0 < pos <= |src|
    ensures SeekClose(src, pos, open).Some? ==>
              open + Depth(src, pos, SeekClose(src, pos, open).value + 1) == 0
    ensures SeekClose(src, pos, open).Some? ==>
              forall k | pos <= k <= SeekClose(src, pos, open).value :: open + Depth(src, pos, k) > 0
    ensures SeekClose(src, pos, open).None? ==>
              forall k | pos <= k <= |src| :: open + Depth(src, pos, k) > 0
    decreases |src| - pos
  {
    if open != 0 && pos < |src| {
      var open' := open + Delta(src[pos]);
      SeekCloseDepth(src, pos + 1, open');
      forall k | pos < k <= |src|
        ensures open + Depth(src, pos, k) == open' + Depth(src, pos + 1, k)
      {
        DepthFirst(src, pos, k);
      }
    }
  }

  /** The backward scan from `ip` stops at the nearest position from which the
      depth up to `ip` equals `open`, and runs off the start only when there
      is none. */
  lemma {:induction false} SeekOpenDepth(src: string, ip: nat, open: nat)
    requires ip < |src|
    ensures SeekOpen(src, ip, open).Some? ==> open == Depth(src, SeekOpen(src, ip, open).value, ip)
    ensures SeekOpen(src, ip, open).Some? ==>
              forall k | SeekOpen(src, ip, open).value < k <= ip :: open > Depth(src, k, ip)
    ensures SeekOpen(src, ip, open).None? ==> forall k | 0 <= k <= ip :: open > Depth(src, k, ip)
    decreases ip
  {
    if open != 0 && ip > 0 {
      SeekOpenDepth(src, ip - 1, open - Delta(src[ip - 1]));
    }
  }

  /** Where the forward scan from a `[` stops is its matching `]`. */
  lemma SeekCloseStopsAtMatch(src: string, i: nat)
    requires i < |src| && src[i] == '[' && SeekClose(src, i + 1, 1).Some?
    ensures Matches(src, i, SeekClose(src, i + 1, 1).value)
  {
    var j := SeekClose(src, i + 1, 1).value;
    SeekCloseDepth(src, i + 1, 1);
    assert j != i;
    assert 1 + Depth(src, i + 1, j) > 0;
    DepthFirst(src, i, j + 1);
    forall k | i < k <= j
      ensures Depth(src, i, k) > 0
    {
      DepthFirst(src, i, k);
    }
  }

  /** When the forward scan from a `[` runs off the end, it has no partner. */
  lemma SeekCloseNoneMeansNoMatch(src: string, i: nat, j: int)
    requires i < |src| && src[i] == '[' && SeekClose(src, i + 1, 1).None?
    ensures !Matches(src, i, j)
  {
    if i < j < |src| {
      SeekCloseDepth(src, i + 1, 1);
      DepthFirst(src, i, j + 1);
    }
  }

  /** The forward scan from a `[` stops exactly on its matching `]`. */
  lemma SeekCloseFindsMatch(src: string, i: nat)
    requires i < |src| && src[i] == '['
    ensures forall j :: SeekClose(src, i + 1, 1) == Some(j) <==> Matches(src, i, j)
  {
    match SeekClose(src, i + 1, 1)
    case Some(j) =>
      SeekCloseStopsAtMatch(src, i);
      forall j' | Matches(src, i, j')
        ensures j' == j
      {
        CloserIsUnique(src, i, j, j');
      }
    case None =>
      forall j
        ensures !Matches(src, i, j)
      {
        SeekCloseNoneMeansNoMatch(src, i, j);
      }
  }

  /** Where the backward scan from a `]` stops is its matching `[`. */
  lemma SeekOpenStopsAtMatch(src: string, j: nat)
    requires j < |src| && src[j] == ']' && SeekOpen(src, j, 1).Some?
    ensures Matches(src, SeekOpen(src, j, 1).value, j)
  {
    var i := SeekOpen(src, j, 1).value;
    SeekOpenDepth(src, j, 1);
    assert i != j;
    DepthFirst(src, i, j);
    forall k | i < k <= j
      ensures Depth(src, i, k) > 0
    {
      DepthSplit(src, i, k, j);
    }
  }

  /** When the backward scan from a `]` runs off the start, it has no partner. */
  lemma SeekOpenNoneMeansNoMatch(src: string, i: int, j: nat)
    requires j < |src| && src[j] == ']' && SeekOpen(src, j, 1).None?
    ensures !Matches(src, i, j)
  {
    if 0 <= i < j {
      SeekOpenDepth(src, j, 1);
      assert 1 > Depth(src, i, j);
    }
  }

  /** The backward scan from a `]` stops exactly on its matching `[`. */
  lemma SeekOpenFindsMatch(src: string, j: nat)
    requires j < |src| && src[j] == ']'
    ensures forall i :: SeekOpen(src, j, 1) == Some(i) <==> Matches(src, i, j)
  {
    match SeekOpen(src, j, 1)
    case Some(i) =>
      SeekOpenStopsAtMatch(src, j);
      forall i' | Matches(src, i', j)
        ensures i' == i
      {
        OpenerIsUnique(src, i, i', j);
      }
    case None =>
      forall i
        ensures !Matches(src, i, j)
      {
        SeekOpenNoneMeansNoMatch(src, i, j);
      }
  }

  /** Balance in terms of the index-based depth. */
  lemma BalancedDepth(src: string, k: nat)
    requires Balanced(src) && k <= |src|
    ensures Depth(src, 0, k) >= 0 && Depth(src, 0, |src|) == 0
  {
    NetIsDepth(src, 0, k);
    NetIsDepth(src, 0, |src|);
    assert src[0..k] == src[..k];
    assert src[0..|src|] == src;
  }

  /** In a balanced text every `[` has a partner the forward scan reaches. */
  lemma BalancedCloseExists(src: string, i: nat)
    requires Balanced(src) && i < |src| && src[i] == '['
    ensures SeekClose(src, i + 1, 1).Some?
  {
    SeekCloseDepth(src, i + 1, 1);
    BalancedDepth(src, i);
    DepthSplit(src, 0, i, |src|);
    DepthFirst(src, i, |src|);
  }

  /** In a balanced text every `]` has a partner the backward scan reaches. */
  lemma BalancedOpenExists(src: string, j: nat)
    requires Balanced(src) && j < |src| && src[j] == ']'
    ensures SeekOpen(src, j, 1).Some?
  {
    SeekOpenDepth(src, j, 1);
    BalancedDepth(src, j + 1);
    assert Depth(src, 0, j) >= 1;
  }

  /** `[` on a zero cell continues after its matching `]`; on any other cell
      it falls through into the loop body. */
  lemma OpenBracketJumps(m: Machine, s: ExecState, j: int)
    requires s.ip < |m.src| && Matches(m.src, s.ip, j)
    ensures Cell(s) == Some(0) ==> Step(m, s) == Next(s.(ip := j + 1))
    ensures Cell(s) != Some(0) ==> Step(m, s) == Next(s.(ip := s.ip + 1))
  {
    SeekCloseFindsMatch(m.src, s.ip);
  }

  /** `]` on a non-zero (or undefined) cell continues after its matching `[`;
      on a zero cell it falls through and leaves the loop. */
  lemma CloseBracketJumps(m: Machine, s: ExecState, i: int)
    requires s.ip < |m.src| && Matches(m.src, i, s.ip)
    ensures Cell(s) != Some(0) ==> Step(m, s) == Next(s.(ip := i + 1))
    ensures Cell(s) == Some(0) ==> Step(m, s) == Next(s.(ip := s.ip + 1))
  {
    SeekOpenFindsMatch(m.src, s.ip);
  }

  /** Every bracket, matched or not: `[` on a cell other than zero and `]` on
      a zero cell fall through; the step hangs exactly when the bracket would
      jump but has no partner to jump to. */
  lemma BracketFallsThroughOrHangs(m: Machine, s: ExecState)
    requires s.ip < |m.src| && m.src[s.ip] in "[]"
    ensures m.src[s.ip] == '[' && Cell(s) != Some(0) ==> Step(m, s) == Next(s.(ip := s.ip + 1))
    ensures m.src[s.ip] == ']' && Cell(s) == Some(0) ==> Step(m, s) == Next(s.(ip := s.ip + 1))
    ensures Step(m, s).Hangs? <==>
              || (m.src[s.ip] == '[' && Cell(s) == Some(0) && forall j :: !Matches(m.src, s.ip, j))
              || (m.src[s.ip] == ']' && Cell(s) != Some(0) && forall i :: !Matches(m.src, i, s.ip))
  {
    if m.src[s.ip] == '[' {
      SeekCloseFindsMatch(m.src, s.ip);
    } else {
      SeekOpenFindsMatch(m.src, s.ip);
    }
  }

  /** A step that hangs ends the run where it stands: the run is `Stuck` in
      the state before that step, whatever budget is left. */
  lemma HangingStepIsStuck(m: Machine, s: ExecState, fuel: nat)
    requires s.ip < |m.src| && fuel > 0 && Step(m, s).Hangs?
    ensures Execute(m, s, fuel) == Stuck(s)
  {
  }

  /** For a balanced program no bracket scan leaves the program: a step never
      hangs and always lands within `[0, |src|]`. */
  lemma BalancedNeverHangs(m: Machine, s: ExecState)
    requires Balanced(m.src) && s.ip < |m.src|
    ensures !Step(m, s).Hangs?
    ensures Step(m, s).Next? ==> Step(m, s).state.ip <= |m.src|
  {
    if m.src[s.ip] == '[' {
      BalancedCloseExists(m.src, s.ip);
    } else if m.src[s.ip] == ']' {
      BalancedOpenExists(m.src, s.ip);
    }
  }

  lemma {:induction false} BalancedExecuteNeverStuck(m: Machine, s: ExecState, fuel: nat)
    requires Balanced(m.src)
    ensures !Execute(m, s, fuel).Stuck?
    decreases fuel
  {
    if s.ip < |m.src| && fuel > 0 {
      BalancedNeverHangs(m, s);
      if Step(m, s).Next? {
        BalancedExecuteNeverStuck(m, Step(m, s).state, fuel - 1);
      }
    }
  }

  /** A run that ended (for any reason but the budget) ends the same way with
      any larger budget. */
  lemma {:induction false} ExecuteMoreFuel(m: Machine, s: ExecState, fuel: nat, more: nat)
    requires fuel <= more && !Execute(m, s, fuel).OutOfFuel?
    ensures Execute(m, s, more) == Execute(m, s, fuel)
    decreases fuel
  {
    if s.ip < |m.src| {
      var r := Step(m, s);
      if r.Next? {
        ExecuteMoreFuel(m, r.state, fuel - 1, more - 1);
        assert Execute(m, s, fuel) == Execute(m, r.state, fuel - 1);
        assert Execute(m, s, more) == Execute(m, r.state, more - 1);
      }
    }
  }

  /** The cross-component guarantee: once the parser accepts a source, the
      engine built from its output (on any tape the engine can allocate) never
      hangs in a bracket scan and keeps its input and instruction pointers in
      range; with at least one cell the data pointer stays on the tape too. */
  lemma AcceptedProgramsRunSafely(src: string, opts: Settings, stdin: seq<CodeUnit>, fuel: nat)
    requires ParseSource(src, opts).Success? && opts.memoryCellCount >= 0
    ensures var m := Machine(ParseSource(src, opts).value.cleanedSource, stdin, opts.eofMode);
            var r := Execute(m, InitialState(opts.memoryCellCount), fuel);
            && !r.Stuck?
            && r.state.cursor <= |stdin|
            && r.state.ip <= |m.src|
            && (opts.memoryCellCount >= 1 ==> 0 <= r.state.dp < opts.memoryCellCount)
  {
    var m := Machine(ParseSource(src, opts).value.cleanedSource, stdin, opts.eofMode);
    BalancedExecuteNeverStuck(m, InitialState(opts.memoryCellCount), fuel);
    ExecutePreservesValid(m, opts.memoryCellCount, InitialState(opts.memoryCellCount), fuel);
  }

  /** A finished instance run again returns the same output at once. */
  lemma RerunAfterFinish(e: BasicEngine, fuel: nat, fuel': nat)
    requires RunEngine(e, fuel).1.Returned?
    ensures RunEngine(RunEngine(e, fuel).0, fuel') == RunEngine(e, fuel)
  {
  }

  /** An instance whose run threw or has not finished refuses a second run. */
  lemma RerunWhileRunningThrows(e: BasicEngine, fuel: nat, fuel': nat)
    requires !RunEngine(e, fuel).1.Returned?
    ensures RunEngine(RunEngine(e, fuel).0, fuel').1 == Threw(AlreadyRunning)
  {
  }
}

=== FILE: eof_handlers.dfy ===
/** The table of end-of-input handlers: given the current cell value, the
    value that `,` stores once the input is exhausted. */
module EofHandlers {
  import opened RuntimeOptions

  function EofHandler(mode: EofMode, cur: int): (r: int)
    ensures mode == Zero ==> r == 0
    ensures mode == NegativeOne ==> r == -1
    ensures mode == Nop ==> r == cur
  {
    match mode
    case Zero => 0
    case NegativeOne => -1
    case Nop => cur
  }

  /** Every handler keeps a signed 8-bit value in range, and applying a
      handler a second time changes nothing (repeated reads at end of input
      are stable). */
  lemma EofHandlerStable(mode: EofMode, cur: int)
    requires -128 <= cur < 128
    ensures -128 <= EofHandler(mode, cur) < 128
    ensures EofHandler(mode, EofHandler(mode, cur)) == EofHandler(mode, cur)
  {
  }
}

=== FILE: legacy.dfy ===
/** The legacy single-file interpreter the page uses. Its parser and engine
    loop are the same as the modular ones and are shared with them here; what
    differs is the defaults (the debug marker is off), the option handling of
    the runtime constructor, and the result class with its own text form. */
module LegacyBf {
  import opened CommonTypes
  import opened RuntimeOptions
  import Parser
  import Engine
  import Runtime

  /** The legacy defaults: as the modular ones, but `#` is not an instruction. */
  const DefaultRuntimeOptions := Settings(30000, 0, 256, Zero, false)

  /** The result class: a success flag, the output text and an error message
      that defaults to the empty string. */
  datatype RunResultImpl = RunResultImpl(success: bool, output: string, errorMessage: string)

  const ParseFailureOutput := "<parse failure!>"

  /** Options merged over the legacy defaults. */
  function AssembleOpts(input: Options): (s: Settings)
    ensures input.enableOctoDebug.None? ==> !s.enableOctoDebug
    ensures input.memoryCellCount.None? ==> s.memoryCellCount == 30000
    ensures input.eofMode.None? ==> s.eofMode == Zero
    ensures s == BuildSettingsFromOptions(input, DefaultRuntimeOptions)
  {
    BuildSettingsFromOptions(input, DefaultRuntimeOptions)
  }

  /** Degrades a failed parse into a failed run result. */
  function FromParseResult(pr: ParseResult): (r: RunResultImpl)
    requires pr.Failure?
    ensures !r.success && r.output == "<parse failure!>" && r.errorMessage == pr.errorMessage
  {
    RunResultImpl(false, ParseFailureOutput, pr.errorMessage)
  }

  /** The text the page shows for a result. */
  function ToString(r: RunResultImpl): (s: string)
    ensures r.success ==> s == r.output + "\n" + "SUCCESS!"
    ensures !r.success ==> s == r.output + "\n" + "ERROR: " + r.errorMessage
  {
    r.output + "\n" + (if r.success then "SUCCESS!" else "ERROR: " + r.errorMessage)
  }

  /** True exactly for a present result whose success flag is down. */
  function IsErrorResult(obj: Option<RunResultImpl>): (b: bool)
    ensures obj.None? ==> !b
    ensures obj.Some? ==> (b <==> !obj.value.success)
  {
    obj.Some? && !obj.value.success
  }

  /** `run()` of a legacy engine instance: the modular engine loop, with the
      output wrapped in the result class. */
  function RunEngine(e: Engine.BasicEngine, fuel: nat): (r: (Engine.BasicEngine, Completion<RunResultImpl>))
    ensures r.0 == Engine.RunEngine(e, fuel).0
    ensures r.1.Returned? <==> Engine.RunEngine(e, fuel).1.Returned?
    ensures r.1.Returned? ==> r.1.value == RunResultImpl(true, Engine.RunEngine(e, fuel).1.value.value, "")
    ensures r.1.Threw? <==> Engine.RunEngine(e, fuel).1.Threw?
    ensures r.1.Threw? ==> r.1.exception == Engine.RunEngine(e, fuel).1.exception
  {
    var (e', c) := Engine.RunEngine(e, fuel);
    match c
    case Returned(res) => (e', Returned(RunResultImpl(true, res.value, "")))
    case Threw(x) => (e', Threw(x))
    case Pending => (e', Pending)
  }

  /** `Engine.build` followed by `run()` on the fresh instance. */
  function BuildAndRun(parsed: ParsedCode, stdin: seq<Engine.CodeUnit>, opts: Settings, fuel: nat): (r: Completion<RunResultImpl>)
    ensures opts.memoryCellCount < 0 ==> r == Threw(InvalidArrayLength(opts.memoryCellCount))
    ensures opts.memoryCellCount >= 0 ==>
              r == RunEngine(Engine.BasicEngine(Engine.Machine(parsed.cleanedSource, stdin, opts.eofMode), false,
                                                Engine.InitialState(opts.memoryCellCount)), fuel).1
    ensures r.Returned? ==> r.value.success && r.value.errorMessage == ""
  {
    match Engine.NewBasicEngine(parsed, opts, stdin)
    case Returned(e) => RunEngine(e, fuel).1
    case Threw(x) => Threw(x)
    case Pending => Pending
  }

  datatype LegacyRuntime = LegacyRuntime(code: string, input: seq<Engine.CodeUnit>, options: Settings)

  datatype LegacyCache = LegacyCache(parseResult: Option<ParseResult>, runResult: Option<RunResultImpl>)

  /** The constructor: the input defaults to empty; absent options mean the
      defaults object itself, present ones are merged over it. */
  function NewRuntime(code: string, input: Option<seq<Engine.CodeUnit>>, options: Option<Options>): (rt: LegacyRuntime)
    ensures rt.code == code && rt.input == input.GetOr([])
    ensures options.None? ==> rt.options == DefaultRuntimeOptions
    ensures options.Some? ==> rt.options == BuildSettingsFromOptions(options.value, DefaultRuntimeOptions)
  {
    LegacyRuntime(code, input.GetOr([]), if options.Some? then AssembleOpts(options.value) else DefaultRuntimeOptions)
  }

  function Parse(rt: LegacyRuntime, c: LegacyCache): (r: (LegacyCache, ParseResult))
    ensures r.1 == Parser.ParseSource(rt.code, rt.options) && r.0 == c.(parseResult := Some(r.1))
  {
    var pr := Parser.ParseSource(rt.code, rt.options);
    (c.(parseResult := Some(pr)), pr)
  }

  /** `run()`: the same parse-once, failure short-circuit and run-again logic
      as the modular runtime. */
  function Run(rt: LegacyRuntime, c: LegacyCache, fuel: nat): (r: (LegacyCache, Completion<RunResultImpl>))
    ensures r.0.parseResult.Some?
    ensures r.1.Returned? ==> r.0.runResult == Some(r.1.value)
  {
    var c1 := if c.parseResult.None? then Parse(rt, c).0 else c;
    var pr := c1.parseResult.value;
    if pr.Failure? then
      var rr := FromParseResult(pr);
      (c1.(runResult := Some(rr)), Returned(rr))
    else if IsErrorResult(c1.runResult) then
      (c1, Returned(c1.runResult.value))
    else
      match BuildAndRun(pr.value, rt.input, rt.options, fuel)
      case Returned(rr) => (c1.(runResult := Some(rr)), Returned(rr))
      case Threw(x) => (c1, Threw(x))
      case Pending => (c1, Pending)
  }

  /** The text the page appends for one click of the run button: a fresh
      runtime on the defaults, its result's text and a line break. */
  function PageOutput(code: string, input: seq<Engine.CodeUnit>, fuel: nat): (r: Completion<string>)
    ensures var run := Run(NewRuntime(code, Some(input), None), LegacyCache(None, None), fuel).1;
            && (r.Returned? <==> run.Returned?)
            && (r.Returned? ==> r.value == ToString(run.value) + "\n")
            && (r.Threw? <==> run.Threw?)
            && (r.Threw? ==> r.exception == run.exception)
  {
    match Run(NewRuntime(code, Some(input), None), LegacyCache(None, None), fuel).1
    case Returned(rr) => Returned(ToString(rr) + "\n")
    case Threw(x) => Threw(x)
    case Pending => Pending
  }

  /** A program the parser rejects shows the parse-failure placeholder and
      the parser's message on the page, whatever the input and budget. */
  lemma PageShowsParseFailure(code: string, input: seq<Engine.CodeUnit>, fuel: nat)
    requires Parser.ParseSource(code, DefaultRuntimeOptions).Failure?
    ensures PageOutput(code, input, fuel)
              == Returned("<parse failure!>\nERROR: " + Parser.ParseSource(code, DefaultRuntimeOptions).errorMessage + "\n")
  {
    var msg := Parser.ParseSource(code, DefaultRuntimeOptions).errorMessage;
    var rr := RunResultImpl(false, "<parse failure!>", msg);
    assert Run(NewRuntime(code, Some(input), None), LegacyCache(None, None), fuel).1 == Returned(rr);
    var head := "<parse failure!>\nERROR: ";
    assert "<parse failure!>" + "\n" == head[..17];
    assert ToString(rr) == head + msg by {
      assert ToString(rr) == head[..17] + (head[17..] + msg);
      assert head[..17] + (head[17..] + msg) == (head[..17] + head[17..]) + msg;
      assert head[..17] + head[17..] == head;
    }
  }

  /** How a modular run result reads in the legacy result class. */
  function AsLegacy(r: Completion<RunResult>): Completion<RunResultImpl> {
    match r
    case Returned(Success(out)) => Returned(RunResultImpl(true, out, ""))
    case Returned(Failure(msg)) => Returned(FromParseResult(Failure(msg)))
    case Threw(x) => Threw(x)
    case Pending => Pending
  }

  /** From a fresh object, the legacy runtime computes what the modular
      runtime with the basic parser and engine computes on the same settings,
      up to the result class. */
  lemma AgreesWithModularRuntime(code: string, input: seq<Engine.CodeUnit>, settings: Settings, fuel: nat)
    ensures var modular := Runtime.Runtime(code, input, settings, Runtime.DefaultParser, Runtime.DefaultEngine);
            Run(LegacyRuntime(code, input, settings), LegacyCache(None, None), fuel).1
              == AsLegacy(Runtime.Run(modular, Runtime.EmptyCache(), fuel).1)
  {
    var pr := Parser.ParseSource(code, settings);
    if pr.Success? {
      match Engine.NewBasicEngine(pr.value, settings, input)
      case Returned(e) =>
        assert BuildAndRun(pr.value, input, settings, fuel) == AsLegacy(Engine.RunBasicEngine(pr.value, settings, input, fuel));
      case Threw(x) =>
      case Pending =>
    }
  }

  /** A legacy cache holds what a modular cache holds, up to the result
      class: the same parse, and a run result in one exactly when in the
      other, the legacy one being the modular one's legacy reading. */
  predicate Mirrors(lc: LegacyCache, mc: Runtime.Cache<ParsedCode>) {
    && lc.parseResult == mc.parseResult
    && (lc.runResult.Some? <==> mc.runResult.Some?)
    && (lc.runResult.Some? ==> Returned(lc.runResult.value) == AsLegacy(Returned(mc.runResult.value)))
  }

  /** From any pair of mirroring caches, not only fresh ones, the legacy
      `parse()` and `run()` compute what the modular ones with the basic parser
      and engine compute, and leave mirroring caches behind: the parse-once,
      failure short-circuit, cached-failure and run-again branches of the
      modular `run()` all carry over, call after call. */
  lemma MirrorsModularRuntime(code: string, input: seq<Engine.CodeUnit>, settings: Settings,
                              lc: LegacyCache, mc: Runtime.Cache<ParsedCode>, fuel: nat)
    requires Mirrors(lc, mc)
    ensures var modular := Runtime.Runtime(code, input, settings, Runtime.DefaultParser, Runtime.DefaultEngine);
            var legacy := LegacyRuntime(code, input, settings);
            && Parse(legacy, lc).1 == Runtime.Parse(modular, mc).1
            && Mirrors(Parse(legacy, lc).0, Runtime.Parse(modular, mc).0)
            && Run(legacy, lc, fuel).1 == AsLegacy(Runtime.Run(modular, mc, fuel).1)
            && Mirrors(Run(legacy, lc, fuel).0, Runtime.Run(modular, mc, fuel).0)
  {
    var modular := Runtime.Runtime(code, input, settings, Runtime.DefaultParser, Runtime.DefaultEngine);
    var lc1 := if lc.parseResult.None? then Parse(LegacyRuntime(code, input, settings), lc).0 else lc;
    var mc1 := if mc.parseResult.None? then Runtime.Parse(modular, mc).0 else mc;
    assert Mirrors(lc1, mc1);
    var pr := lc1.parseResult.value;
    if pr.Success? && !IsErrorResult(lc1.runResult) {
      assert BuildAndRun(pr.value, input, settings, fuel) == AsLegacy(Engine.RunBasicEngine(pr.value, settings, input, fuel));
    }
  }

  /** A new legacy object and a new modular object start out mirrored. */
  lemma FreshCachesMirror()
    ensures Mirrors(LegacyCache(None, None), Runtime.EmptyCache())
  {
  }

  /** On the page the debug marker is not an instruction: `#` is stripped. */
  lemma PageStripsOctoMarker(code: string, input: seq<Engine.CodeUnit>)
    ensures !NewRuntime(code, Some(input), None).options.enableOctoDebug
    ensures '#' !in Parser.Clean(code, NewRuntime(code, Some(input), None).options.enableOctoDebug)
  {
    Parser.OctoMarkerSurvival(code, false);
  }

  /** A successful legacy run has an empty error message and shows its output
      followed by the success line. */
  lemma SuccessShowsOutput(rt: LegacyRuntime, c: LegacyCache, fuel: nat)
    requires Run(rt, c, fuel).1.Returned? && Run(rt, c, fuel).1.value.success
    ensures Run(rt, c, fuel).1.value.errorMessage == ""
    ensures ToString(Run(rt, c, fuel).1.value) == Run(rt, c, fuel).1.value.output + "\nSUCCESS!"
  {
  }
}

=== FILE: parser.dfy ===
/** The sanitiser and validator: keep only instruction characters, then check
    that the brackets balance. */
module Parser {
  import opened CommonTypes
  import opened RuntimeOptions
  import opened Brackets

  const ImbalanceMessage := "Imbalanced brackets detected!"

  /** The instruction alphabet; the debug marker `#` belongs to it only when
      enabled. */
  predicate IsInstruction(c: char, enableOctoDebug: bool) {
    c in "-+,.<>[]" || (enableOctoDebug && c == '#')
  }

  /** The source with every non-instruction character removed. */
  function Clean(src: string, enableOctoDebug: bool): (r: string)
    ensures |r| <= |src|
    ensures forall c | c in r :: IsInstruction(c, enableOctoDebug)
    decreases |src|
  {
    if src == [] then []
    else (if IsInstruction(src[0], enableOctoDebug) then [src[0]] else []) + Clean(src[1..], enableOctoDebug)
  }

  /** The balance check's loop, entered with depth `open`: `[` opens, `]`
      closes and fails as soon as the depth drops below zero, anything else
      is skipped; at the end the depth must be zero. */
  function DepthScan(s: string, open: int): bool
    decreases |s|
  {
    if s == [] then open == 0
    else if s[0] == '[' then DepthScan(s[1..], open + 1)
    else if s[0] == ']' then open - 1 >= 0 && DepthScan(s[1..], open - 1)
    else DepthScan(s[1..], open)
  }

  function AreBracketsBalanced(s: string): bool {
    DepthScan(s, 0)
  }

  /** The scan accepts from depth `open` exactly when no prefix takes the
      depth below zero and the whole text brings it back to zero. */
  lemma {:induction false} DepthScanMeaning(s: string, open: int)
    requires open >= 0
    ensures DepthScan(s, open) <==>
              (forall k | 0 <= k <= |s| :: open + Net(s[..k]) >= 0) && open + Net(s) == 0
    decreases |s|
  {
    if s == [] {
      assert s[..0] == s;
    } else {
      var t := s[1..];
      var open' := open + Delta(s[0]);
      assert Net(s) == Delta(s[0]) + Net(t) by {
        assert s == [s[0]] + t;
      }
      assert forall k | 1 <= k <= |s| :: Net(s[..k]) == Delta(s[0]) + Net(t[..k-1]) by {
        forall k | 1 <= k <= |s|
          ensures Net(s[..k]) == Delta(s[0]) + Net(t[..k-1])
        {
          assert s[..k] == [s[0]] + t[..k-1];
        }
      }
      if s[0] == ']' && open == 0 {
        assert open + Net(s[..1]) < 0;
      } else {
        DepthScanMeaning(t, open');
        if DepthScan(s, open) {
          forall k | 0 <= k <= |s|
            ensures open + Net(s[..k]) >= 0
          {
            if k > 0 {
              assert open' + Net(t[..k-1]) >= 0;
            } else {
              assert s[..k] == [];
            }
          }
        } else {
          if open' + Net(t) == 0 {
            var k' :| 0 <= k' <= |t| && open' + Net(t[..k']) < 0;
            assert open + Net(s[..k'+1]) < 0;
          }
        }
      }
    }
  }

  /** The loop and the reference definition of balance agree. */
  lemma AreBracketsBalancedMeaning(s: string)
    ensures AreBracketsBalanced(s) <==> Balanced(s)
  {
    DepthScanMeaning(s, 0);
    assert s[..|s|] == s;
  }

  /** Cleans the source and checks its balance; a success carries the source
      unchanged together with its cleaned form. */
  function ParseSource(src: string, opts: Settings): (r: ParseResult)
    ensures r.Success? <==> Balanced(Clean(src, opts.enableOctoDebug))
    ensures r.Success? ==> r.value == ParsedCode(src, Clean(src, opts.enableOctoDebug))
    ensures r.Failure? ==> r.errorMessage == ImbalanceMessage
  {
    var cleanedSource := Clean(src, opts.enableOctoDebug);
    AreBracketsBalancedMeaning(cleanedSource);
    if !AreBracketsBalanced(cleanedSource) then Failure(ImbalanceMessage)
    else Success(ParsedCode(src, cleanedSource))
  }

  /** Cleaning distributes over concatenation, so it keeps the kept
      characters in their original order. */
  lemma {:induction false} CleanAppend(a: string, b: string, enableOctoDebug: bool)
    ensures Clean(a + b, enableOctoDebug) == Clean(a, enableOctoDebug) + Clean(b, enableOctoDebug)
    decreases |a|
  {
    if a == [] {
      assert a + b == b;
    } else {
      assert (a + b)[0] == a[0];
      assert (a + b)[1..] == a[1..] + b;
      CleanAppend(a[1..], b, enableOctoDebug);
    }
  }

  /** Every instruction character survives as often as it occurs; every other
      character is dropped. */
  lemma {:induction false} CleanCounts(src: string, enableOctoDebug: bool)
    ensures forall c :: multiset(Clean(src, enableOctoDebug))[c]
                        == if IsInstruction(c, enableOctoDebug) then multiset(src)[c] else 0
    decreases |src|
  {
    if src != [] {
      CleanCounts(src[1..], enableOctoDebug);
      assert src == [src[0]] + src[1..];
      assert multiset(src) == multiset([src[0]]) + multiset(src[1..]);
    }
  }

  /** A text made only of instructions is left as it is. */
  lemma {:induction false} CleanKeepsInstructions(src: string, enableOctoDebug: bool)
    requires forall c | c in src :: IsInstruction(c, enableOctoDebug)
    ensures Clean(src, enableOctoDebug) == src
    decreases |src|
  {
    if src != [] {
      assert src[0] in src;
      assert forall c | c in src[1..] :: c in src;
      CleanKeepsInstructions(src[1..], enableOctoDebug);
    }
  }

  /** Cleaning is idempotent. */
  lemma CleanIdempotent(src: string, enableOctoDebug: bool)
    ensures Clean(Clean(src, enableOctoDebug), enableOctoDebug) == Clean(src, enableOctoDebug)
  {
    CleanKeepsInstructions(Clean(src, enableOctoDebug), enableOctoDebug);
  }

  /** The debug marker survives cleaning exactly when it is enabled and present. */
  lemma OctoMarkerSurvival(src: string, enableOctoDebug: bool)
    ensures '#' in Clean(src, enableOctoDebug) <==> enableOctoDebug && '#' in src
  {
    CleanCounts(src, enableOctoDebug);
    assert multiset(Clean(src, enableOctoDebug))['#'] > 0 <==> '#' in Clean(src, enableOctoDebug);
  }

  /** Only brackets move the depth counter, so the characters cleaning drops
      never change the verdict of the scan. */
  lemma {:induction false} DepthScanIgnoresDropped(src: string, enableOctoDebug: bool, open: int)
    ensures DepthScan(Clean(src, enableOctoDebug), open) == DepthScan(src, open)
    decreases |src|
  {
    if src != [] {
      var rest := Clean(src[1..], enableOctoDebug);
      if IsInstruction(src[0], enableOctoDebug) {
        assert Clean(src, enableOctoDebug) == [src[0]] + rest;
        assert ([src[0]] + rest)[1..] == rest;
        DepthScanIgnoresDropped(src[1..], enableOctoDebug, open + Delta(src[0]));
        DepthScanIgnoresDropped(src[1..], enableOctoDebug, open);
      } else {
        assert Clean(src, enableOctoDebug) == rest;
        DepthScanIgnoresDropped(src[1..], enableOctoDebug, open);
      }
    }
  }

  /** Whether the parser accepts depends only on the brackets of the raw
      source, not on the debug-marker setting nor on comment characters. */
  lemma ParseVerdictIgnoresComments(src: string, opts: Settings)
    ensures ParseSource(src, opts).Success? <==> Balanced(src)
  {
    DepthScanIgnoresDropped(src, opts.enableOctoDebug, 0);
    AreBracketsBalancedMeaning(src);
    AreBracketsBalancedMeaning(Clean(src, opts.enableOctoDebug));
  }

  /** A prefix of the cleaned source that closes more than it opened makes
      the parse fail with the imbalance message. */
  lemma NegativePrefixFails(src: string, opts: Settings, k: nat)
    requires k <= |Clean(src, opts.enableOctoDebug)|
    requires Net(Clean(src, opts.enableOctoDebug)[..k]) < 0
    ensures ParseSource(src, opts) == Failure(ImbalanceMessage)
  {
  }

  /** Unequal numbers of `[` and `]` make the parse fail with the imbalance
      message. */
  lemma UnequalCountsFail(src: string, opts: Settings)
    requires multiset(src)['['] != multiset(src)[']']
    ensures ParseSource(src, opts) == Failure(ImbalanceMessage)
  {
    CleanCounts(src, opts.enableOctoDebug);
    NetCounts(Clean(src, opts.enableOctoDebug));
  }

  /** A program without brackets is always accepted, under any settings. */
  lemma BracketFreeAccepted(src: string, opts: Settings)
    requires '[' !in src && ']' !in src
    ensures ParseSource(src, opts) == Success(ParsedCode(src, Clean(src, opts.enableOctoDebug)))
  {
    forall k | 0 <= k <= |src|
      ensures Net(src[..k]) == 0
    {
      NetCounts(src[..k]);
      assert '[' !in multiset(src[..k]) && ']' !in multiset(src[..k]);
    }
    assert src[..|src|] == src;
    ParseVerdictIgnoresComments(src, opts);
  }
}

=== FILE: result_util.dfy ===
/** Stringifying results and degrading a parse failure into a run failure. */
module ResultUtil {
  import opened CommonTypes

  const SuccessText := "SUCCESS!"
  const OutputHeader := " OUTPUT:\n"
  const ErrorPrefix := "ERROR: "

  /** `outputField` says whether the success payload has an `output` field
      and, if so, its text. */
  function StringifyResult<T>(result: Result<T>, outputField: T -> Option<string>): (s: string)
    ensures result.Failure? ==> s == ErrorPrefix + result.errorMessage
    ensures result.Success? && outputField(result.value).None? ==> s == SuccessText
    ensures result.Success? && outputField(result.value).Some? ==>
              s == SuccessText + OutputHeader + outputField(result.value).value
  {
    match result
    case Failure(msg) => ErrorPrefix + msg
    case Success(v) =>
      match outputField(v)
      case None => SuccessText
      case Some(out) => SuccessText + OutputHeader + out
  }

  /** A run result always has an output field on success. */
  function StringifyRunResult(r: RunResult): (s: string)
    ensures r.Success? ==> s == "SUCCESS! OUTPUT:\n" + r.value
    ensures r.Failure? ==> s == "ERROR: " + r.errorMessage
  {
    StringifyResult(r, (out: string) => Some(out))
  }

  /** A parse result never has an output field. */
  function StringifyParseResult(r: ParseResult): (s: string)
    ensures r.Success? ==> s == "SUCCESS!"
    ensures r.Failure? ==> s == "ERROR: " + r.errorMessage
  {
    StringifyResult(r, (p: ParsedCode) => None)
  }

  /** A parse failure is already a valid run failure: it is passed through. */
  function BuildRunErrorFromParseError<P>(pr: Result<P>): (r: RunResult)
    requires pr.Failure?
    ensures r.Failure? && r.errorMessage == pr.errorMessage
  {
    Failure(pr.errorMessage)
  }

  /** The text of a run result determines the result: success and failure
      texts never collide, and each one determines its payload. */
  lemma StringifyRunResultInjective(a: RunResult, b: RunResult)
    requires StringifyRunResult(a) == StringifyRunResult(b)
    ensures a == b
  {
    var sa, sb := StringifyRunResult(a), StringifyRunResult(b);
    if a.Success? && b.Success? {
      var h := "SUCCESS! OUTPUT:\n";
      assert a.value == sa[|h|..];
      assert b.value == sb[|h|..];
    } else if a.Success? {
      SuccessAndErrorTextsDiffer(a.value, b.errorMessage);
    } else if b.Success? {
      SuccessAndErrorTextsDiffer(b.value, a.errorMessage);
    } else {
      var h := "ERROR: ";
      assert sa == h + a.errorMessage && sb == h + b.errorMessage;
      assert a.errorMessage == sa[|h|..];
      assert b.errorMessage == sb[|h|..];
    }
  }

  lemma SuccessAndErrorTextsDiffer(output: string, msg: string)
    ensures StringifyRunResult(Success(output)) != StringifyRunResult(Failure(msg))
  {
    assert StringifyRunResult(Success(output))[0] == 'S';
    assert StringifyRunResult(Failure(msg))[0] == 'E';
  }

  /** A parse failure degraded to a run failure keeps its text. */
  lemma DegradedFailureText<P>(pr: Result<P>)
    requires pr.Failure?
    ensures IsErrorResult(Some(BuildRunErrorFromParseError(pr)))
    ensures StringifyRunResult(BuildRunErrorFromParseError(pr)) == "ERROR: " + pr.errorMessage
  {
  }
}

=== FILE: runtime.dfy ===
/** The orchestrator: holds the source, the input, the merged settings and
    the parser and engine it was built with, and sequences parse and run while
    caching the last parse and run results. */
module Runtime {
  import opened CommonTypes
  import opened RuntimeOptions
  import opened ResultUtil
  import Parser
  import Engine

  /** A parser: source and settings to a parse result. */
  type ParserFn<P> = (string, Settings) -> Result<P>

  /** An engine builder together with one `run()` of the fresh engine, given a
      budget of executed instructions. */
  type EngineFn<!P> = (P, Settings, seq<Engine.CodeUnit>, nat) -> Completion<RunResult>

  /** The readonly part of a runtime object. */
  datatype Runtime<!P> = Runtime(
    code: string,
    input: seq<Engine.CodeUnit>,
    settings: Settings,
    parser: ParserFn<P>,
    engine: EngineFn<P>)

  /** The private caches of a runtime object. */
  datatype Cache<P> = Cache(parseResult: Option<Result<P>>, runResult: Option<RunResult>)

  /** A freshly constructed runtime has no cached results. */
  function EmptyCache<P>(): (c: Cache<P>)
    ensures !HasParsed(c) && !HasRan(c)
  {
    Cache(None, None)
  }

  /** The constructor: the settings are computed once, here. */
  function New<P>(code: string, input: seq<Engine.CodeUnit>, options: Options,
                  parser: ParserFn<P>, engine: EngineFn<P>): (rt: Runtime<P>)
    ensures rt.settings == BuildSettingsFromOptions(options, DefaultRuntimeSettings)
    ensures rt.code == code && rt.input == input
  {
    Runtime(code, input, BuildRuntimeSettings(options), parser, engine)
  }

  const DefaultParser: ParserFn<ParsedCode> := Parser.ParseSource
  const DefaultEngine: EngineFn<ParsedCode> := Engine.RunBasicEngine

  /** The convenience constructor: the basic parser and engine, an empty input
      when none is given, and the default settings when no options are given. */
  function WithDefaultParserAndEngine(code: string, input: Option<seq<Engine.CodeUnit>>,
                                      options: Option<Options>): (rt: Runtime<ParsedCode>)
    ensures rt.code == code
    ensures input.None? ==> rt.input == []
    ensures input.Some? ==> rt.input == input.value
    ensures options.None? ==> rt.settings == DefaultRuntimeSettings
    ensures options.Some? ==> rt.settings == BuildRuntimeSettings(options.value)
    ensures rt.parser == DefaultParser && rt.engine == DefaultEngine
  {
    MergeOfCompleteOptions(DefaultRuntimeSettings, DefaultRuntimeSettings);
    New(code, input.GetOr([]), options.GetOr(AsOptions(DefaultRuntimeSettings)), DefaultParser, DefaultEngine)
  }

  /** Whether a parse result, successful or not, is cached. */
  function HasParsed<P>(c: Cache<P>): (b: bool)
    ensures b <==> c.parseResult != None
  {
    c.parseResult.Some?
  }

  /** Whether a run result, successful or not, is cached. */
  function HasRan<P>(c: Cache<P>): (b: bool)
    ensures b <==> c.runResult != None
  {
    c.runResult.Some?
  }

  /** `parse()`: always calls the parser and overwrites the cached parse. */
  function Parse<P>(rt: Runtime<P>, c: Cache<P>): (r: (Cache<P>, Result<P>))
    ensures r.0 == c.(parseResult := Some(r.1))
    ensures r.1 == rt.parser(rt.code, rt.settings)
  {
    var pr := rt.parser(rt.code, rt.settings);
    (c.(parseResult := Some(pr)), pr)
  }

  /** The parse result `run()` works with: the cached one, else a fresh one. */
  function CurrentParse<P>(rt: Runtime<P>, c: Cache<P>): Result<P> {
    if HasParsed(c) then c.parseResult.value else rt.parser(rt.code, rt.settings)
  }

  /** `run()`, with a budget of `fuel` executed instructions for the engine. */
  function Run<P>(rt: Runtime<P>, c: Cache<P>, fuel: nat): (r: (Cache<P>, Completion<RunResult>))
    ensures HasParsed(r.0)
    ensures r.1.Returned? ==> HasRan(r.0) && r.0.runResult == Some(r.1.value)
  {
    var c1 := if !HasParsed(c) then Parse(rt, c).0 else c;
    var pr := c1.parseResult.value;
    if IsErrorResult(c1.parseResult) then
      var rr := BuildRunErrorFromParseError(pr);
      (c1.(runResult := Some(rr)), Returned(rr))
    else if IsErrorResult(c1.runResult) then
      (c1, Returned(c1.runResult.value))
    else
      match rt.engine(pr.value, rt.settings, rt.input, fuel)
      case Returned(rr) => (c1.(runResult := Some(rr)), Returned(rr))
      case Threw(x) => (c1, Threw(x))
      case Pending => (c1, Pending)
  }

  /** How the two flags move: a new object has neither; `parse()` raises the
      first and leaves the second alone; `run()` raises the first, raises the
      second whenever it returns, and never lowers either. */
  lemma CacheFlags<P>(rt: Runtime<P>, c: Cache<P>, fuel: nat)
    ensures !HasParsed(EmptyCache<P>()) && !HasRan(EmptyCache<P>())
    ensures HasParsed(Parse(rt, c).0) && HasRan(Parse(rt, c).0) == HasRan(c)
    ensures HasParsed(Run(rt, c, fuel).0)
    ensures HasRan(c) ==> HasRan(Run(rt, c, fuel).0)
    ensures Run(rt, c, fuel).1.Returned? ==> HasRan(Run(rt, c, fuel).0)
  {
  }

  /** The parser runs only when nothing is cached; afterwards the parse is
      cached and a second parser would not be consulted. */
  lemma ParsesOnce<P>(rt: Runtime<P>, c: Cache<P>, fuel: nat, otherParser: ParserFn<P>)
    ensures HasParsed(c) ==> Run(rt, c, fuel).0.parseResult == c.parseResult
    ensures HasParsed(c) ==> Run(rt.(parser := otherParser), c, fuel) == Run(rt, c, fuel)
    ensures !HasParsed(c) ==> Run(rt, c, fuel).0.parseResult == Some(rt.parser(rt.code, rt.settings))
  {
  }

  /** A failed parse becomes the run's failure, with the parser's message, and
      is cached; no engine is involved. */
  lemma ParseFailureShortCircuits<P>(rt: Runtime<P>, c: Cache<P>, fuel: nat, otherEngine: EngineFn<P>)
    requires CurrentParse(rt, c).Failure?
    ensures Run(rt, c, fuel).1 == Returned(Failure(CurrentParse(rt, c).errorMessage))
    ensures Run(rt, c, fuel).0 == Cache(Some(CurrentParse(rt, c)), Some(Failure(CurrentParse(rt, c).errorMessage)))
    ensures Run(rt.(engine := otherEngine), c, fuel) == Run(rt, c, fuel)
  {
  }

  /** After a successful parse, a cached failed run is returned as it is,
      without an engine. */
  lemma CachedFailureReturned<P>(rt: Runtime<P>, c: Cache<P>, fuel: nat, otherEngine: EngineFn<P>)
    requires c.parseResult.Some? && c.parseResult.value.Success?
    requires c.runResult.Some? && c.runResult.value.Failure?
    ensures Run(rt, c, fuel) == (c, Returned(c.runResult.value))
    ensures Run(rt.(engine := otherEngine), c, fuel) == Run(rt, c, fuel)
  {
  }

  /** After a successful parse and unless a failed run is cached, every call
      builds and runs a fresh engine: a cached successful run is not reused
      but overwritten with the new result. */
  lemma SuccessIsRecomputed<P>(rt: Runtime<P>, c: Cache<P>, fuel: nat)
    requires CurrentParse(rt, c).Success?
    requires !IsErrorResult(c.runResult)
    ensures Run(rt, c, fuel).1 == rt.engine(CurrentParse(rt, c).value, rt.settings, rt.input, fuel)
    ensures Run(rt, c, fuel).1.Returned? ==>
              Run(rt, c, fuel).0 == Cache(Some(CurrentParse(rt, c)), Some(Run(rt, c, fuel).1.value))
    ensures !Run(rt, c, fuel).1.Returned? ==>
              Run(rt, c, fuel).0 == c.(parseResult := Some(CurrentParse(rt, c)))
  {
  }

  /** Running twice gives the same result the second time; for a success this
      holds only because the engine is deterministic, since it runs again. */
  lemma RunTwiceAgrees<P>(rt: Runtime<P>, c: Cache<P>, fuel: nat)
    requires Run(rt, c, fuel).1.Returned?
    ensures Run(rt, Run(rt, c, fuel).0, fuel).1 == Run(rt, c, fuel).1
    ensures HasRan(Run(rt, c, fuel).0)
  {
  }

  /** What `run()` can leave cached with the basic engine: a failed run is
      only ever cached next to a failed parse. */
  predicate CacheInvariant(c: Cache<ParsedCode>) {
    IsErrorResult(c.runResult) ==> IsErrorResult(c.parseResult)
  }

  /** With the basic engine the invariant holds from construction through
      every `parse()` and `run()`, so the cached-failed-run branch of `run()`
      is never taken. */
  lemma BasicEngineNeverReusesFailedRun(rt: Runtime<ParsedCode>, c: Cache<ParsedCode>, fuel: nat)
    requires rt.engine == DefaultEngine && rt.parser == DefaultParser
    requires CacheInvariant(c)
    requires c.parseResult.Some? ==> c.parseResult.value == rt.parser(rt.code, rt.settings)
    ensures CacheInvariant(Run(rt, c, fuel).0)
    ensures CacheInvariant(Parse(rt, c).0)
    ensures Run(rt, c, fuel).0.parseResult.value.Success? ==> !IsErrorResult(c.runResult)
  {
    var pr := rt.parser(rt.code, rt.settings);
    if pr.Success? {
      var out := Engine.RunBasicEngine(pr.value, rt.settings, rt.input, fuel);
      assert rt.engine(pr.value, rt.settings, rt.input, fuel) == out;
    }
  }

  /** A fresh runtime with the basic parser and engine: `run()` parses, and
      either fails with the parser's message or builds and runs the engine. */
  lemma FreshDefaultRun(code: string, input: seq<Engine.CodeUnit>, settings: Settings, fuel: nat)
    ensures var rt := Runtime(code, input, settings, DefaultParser, DefaultEngine);
            var pr := Parser.ParseSource(code, settings);
            && (pr.Failure? ==> Run(rt, EmptyCache(), fuel) == (Cache(Some(pr), Some(Failure(pr.errorMessage))), Returned(Failure(pr.errorMessage))))
            && (pr.Success? ==> Run(rt, EmptyCache(), fuel).1 == Engine.RunBasicEngine(pr.value, settings, input, fuel))
            && (pr.Success? ==> Run(rt, EmptyCache(), fuel).0.runResult
                                  == if Run(rt, EmptyCache(), fuel).1.Returned? then Some(Run(rt, EmptyCache(), fuel).1.value) else None)
  {
    var rt := Runtime(code, input, settings, DefaultParser, DefaultEngine);
    var pr := Parser.ParseSource(code, settings);
    assert rt.parser(code, settings) == pr;
    if pr.Success? {
      assert rt.engine(pr.value, settings, input, fuel) == Engine.RunBasicEngine(pr.value, settings, input, fuel);
    }
  }

  /** The modular runtime on the defaults: sources are cleaned keeping `#`. */
  lemma DefaultRuntimeKeepsOctoMarker(code: string)
    ensures WithDefaultParserAndEngine(code, None, None).settings.enableOctoDebug
    ensures WithDefaultParserAndEngine(code, None, None).settings.memoryCellCount == 30000
  {
  }
}

=== FILE: runtime_options.dfy ===
/** Runtime configuration: the EOF modes, the settings record, its defaults
    and the merge of partial options over defaults. */
module RuntimeOptions {
  import opened CommonTypes

  /** What `,` stores once the input is exhausted. */
  datatype EofMode = Zero | NegativeOne | Nop

  datatype Settings = Settings(
    memoryCellCount: int,
    memoryCellMinValue: int,
    memoryCellMaxValue: int,
    eofMode: EofMode,
    enableOctoDebug: bool)

  /** Partial settings: an absent field is `None`. */
  datatype Options = Options(
    memoryCellCount: Option<int>,
    memoryCellMinValue: Option<int>,
    memoryCellMaxValue: Option<int>,
    eofMode: Option<EofMode>,
    enableOctoDebug: Option<bool>)

  const NoOptions := Options(None, None, None, None, None)

  /** The defaults of the modular runtime; the debug marker is enabled. */
  const DefaultRuntimeSettings := Settings(30000, 0, 256, Zero, true)

  /** A complete settings record used where options are expected. */
  function AsOptions(s: Settings): (o: Options)
    ensures o.memoryCellCount.Some? && o.eofMode.Some? && o.enableOctoDebug.Some?
    ensures o.memoryCellMinValue.Some? && o.memoryCellMaxValue.Some?
  {
    Options(Some(s.memoryCellCount), Some(s.memoryCellMinValue), Some(s.memoryCellMaxValue),
            Some(s.eofMode), Some(s.enableOctoDebug))
  }

  /** `Object.assign({}, defaults, input)`: every field present in `input`
      wins, every absent field keeps its default. No range checks. */
  function BuildSettingsFromOptions(input: Options, defaults: Settings): (s: Settings)
    ensures input.memoryCellCount.Some? ==> s.memoryCellCount == input.memoryCellCount.value
    ensures input.memoryCellCount.None? ==> s.memoryCellCount == defaults.memoryCellCount
    ensures input.memoryCellMinValue.Some? ==> s.memoryCellMinValue == input.memoryCellMinValue.value
    ensures input.memoryCellMinValue.None? ==> s.memoryCellMinValue == defaults.memoryCellMinValue
    ensures input.memoryCellMaxValue.Some? ==> s.memoryCellMaxValue == input.memoryCellMaxValue.value
    ensures input.memoryCellMaxValue.None? ==> s.memoryCellMaxValue == defaults.memoryCellMaxValue
    ensures input.eofMode.Some? ==> s.eofMode == input.eofMode.value
    ensures input.eofMode.None? ==> s.eofMode == defaults.eofMode
    ensures input.enableOctoDebug.Some? ==> s.enableOctoDebug == input.enableOctoDebug.value
    ensures input.enableOctoDebug.None? ==> s.enableOctoDebug == defaults.enableOctoDebug
  {
    Settings(
      input.memoryCellCount.GetOr(defaults.memoryCellCount),
      input.memoryCellMinValue.GetOr(defaults.memoryCellMinValue),
      input.memoryCellMaxValue.GetOr(defaults.memoryCellMaxValue),
      input.eofMode.GetOr(defaults.eofMode),
      input.enableOctoDebug.GetOr(defaults.enableOctoDebug))
  }

  /** The settings of the modular runtime: options merged over its defaults. */
  function BuildRuntimeSettings(input: Options): (s: Settings)
    ensures input.memoryCellCount.None? ==> s.memoryCellCount == 30000
    ensures input.memoryCellMinValue.None? ==> s.memoryCellMinValue == 0
    ensures input.memoryCellMaxValue.None? ==> s.memoryCellMaxValue == 256
    ensures input.eofMode.None? ==> s.eofMode == Zero
    ensures input.enableOctoDebug.None? ==> s.enableOctoDebug
    ensures input.memoryCellCount.Some? ==> s.memoryCellCount == input.memoryCellCount.value
    ensures input.memoryCellMinValue.Some? ==> s.memoryCellMinValue == input.memoryCellMinValue.value
    ensures input.memoryCellMaxValue.Some? ==> s.memoryCellMaxValue == input.memoryCellMaxValue.value
    ensures input.eofMode.Some? ==> s.eofMode == input.eofMode.value
    ensures input.enableOctoDebug.Some? ==> s.enableOctoDebug == input.enableOctoDebug.value
  {
    BuildSettingsFromOptions(input, DefaultRuntimeSettings)
  }

  /** Merging a complete record gives that record back, whatever the defaults. */
  lemma MergeOfCompleteOptions(s: Settings, defaults: Settings)
    ensures BuildSettingsFromOptions(AsOptions(s), defaults) == s
  {
  }

  /** Merging no options gives the defaults unchanged. */
  lemma MergeOfNoOptions(defaults: Settings)
    ensures BuildSettingsFromOptions(NoOptions, defaults) == defaults
  {
  }

  /** Merging the same options twice changes nothing more. */
  lemma MergeIsIdempotent(input: Options, defaults: Settings)
    ensures BuildSettingsFromOptions(input, BuildSettingsFromOptions(input, defaults))
         == BuildSettingsFromOptions(input, defaults)
  {
  }

  /** The merge validates nothing: any cell count, including 0 or a negative
      one, is passed through unchanged. */
  lemma MergeDoesNotValidate(count: int)
    ensures BuildRuntimeSettings(NoOptions.(memoryCellCount := Some(count))).memoryCellCount == count
    ensures BuildRuntimeSettings(NoOptions.(memoryCellCount := Some(count))).enableOctoDebug
  {
  }
}

=== FILE: scenarios.dfy ===
/** Small concrete runs through the whole pipeline. */
module Scenarios {
  import opened CommonTypes
  import opened RuntimeOptions
  import Parser
  import Engine
  import Runtime
  import LegacyBf

  /** The engine on `,+.` with input `A` prints `B` in three instructions. */
  lemma EchoSuccessorRun()
    ensures Engine.Execute(Engine.Machine(",+.", [65], Zero), Engine.InitialState(30000), 3).Finished?
    ensures Engine.Execute(Engine.Machine(",+.", [65], Zero), Engine.InitialState(30000), 3).state.stdout == "B"
  {
    var m := Engine.Machine(",+.", [65], Zero);
    var s0 := Engine.InitialState(30000);
    var s1 := s0.(tape := s0.tape[0 := 65], cursor := 1, ip := 1);
    var s2 := s1.(tape := s0.tape[0 := 66], ip := 2);
    var s3 := s2.(stdout := "B", ip := 3);
    assert Engine.Step(m, s0) == Engine.Next(s1);
    assert Engine.Step(m, s1) == Engine.Next(s2);
    assert Engine.Step(m, s2) == Engine.Next(s3);
    assert Engine.Execute(m, s2, 1) == Engine.Finished(s3);
    assert Engine.Execute(m, s1, 2) == Engine.Finished(s3);
  }

  /** `,+.` with input `A` prints `B` through the modular runtime. */
  lemma EchoSuccessor()
    ensures Runtime.Run(Runtime.WithDefaultParserAndEngine(",+.", Some([65]), None), Runtime.EmptyCache(), 3).1
              == Returned(Success("B"))
  {
    Parser.CleanKeepsInstructions(",+.", true);
    Parser.BracketFreeAccepted(",+.", DefaultRuntimeSettings);
    EchoSuccessorRun();
    Runtime.FreshDefaultRun(",+.", [65], DefaultRuntimeSettings, 3);
  }

  /** A lone `]` is rejected under any settings. */
  lemma LoneCloserRejected(opts: Settings)
    ensures Parser.ParseSource("]", opts) == Failure(Parser.ImbalanceMessage)
  {
    assert "]" == [']'];
    Parser.UnequalCountsFail("]", opts);
  }

  /** The page text for a parse failure, spelled out. */
  lemma ImbalanceText()
    ensures "<parse failure!>\nERROR: " + Parser.ImbalanceMessage + "\n"
              == "<parse failure!>\nERROR: Imbalanced brackets detected!\n"
  {
    var text := "<parse failure!>\nERROR: Imbalanced brackets detected!\n";
    assert text == text[..24] + text[24..53] + text[53..];
  }

  /** A lone `]` shows the legacy failure text on the page. */
  lemma LoneCloserOnThePage(input: seq<Engine.CodeUnit>, fuel: nat)
    ensures LegacyBf.PageOutput("]", input, fuel)
              == Returned("<parse failure!>\nERROR: Imbalanced brackets detected!\n")
  {
    LoneCloserRejected(LegacyBf.DefaultRuntimeOptions);
    LegacyBf.PageShowsParseFailure("]", input, fuel);
    ImbalanceText();
  }

  /** The engine on `-.` throws at the `.`: -1 is no code point. */
  lemma NegativeCellRun()
    ensures Engine.Execute(Engine.Machine("-.", [], Zero), Engine.InitialState(30000), 5)
              == Engine.Crashed(InvalidCodePoint(Some(-1)), Engine.InitialState(30000).(tape := Engine.InitialState(30000).tape[0 := -1], ip := 1))
  {
    var m := Engine.Machine("-.", [], Zero);
    var s0 := Engine.InitialState(30000);
    var s1 := s0.(tape := s0.tape[0 := -1], ip := 1);
    assert Engine.Step(m, s0) == Engine.Next(s1);
    assert Engine.Step(m, s1) == Engine.Raised(InvalidCodePoint(Some(-1)));
    assert Engine.Execute(m, s1, 4) == Engine.Crashed(InvalidCodePoint(Some(-1)), s1);
  }

  /** `-.` through the modular runtime: the run throws and the cached run
      result stays empty. */
  lemma NegativeCellCrashes()
    ensures var r := Runtime.Run(Runtime.WithDefaultParserAndEngine("-.", None, None), Runtime.EmptyCache(), 5);
            r.1 == Threw(InvalidCodePoint(Some(-1))) && r.0.runResult.None?
  {
    Parser.CleanKeepsInstructions("-.", true);
    Parser.BracketFreeAccepted("-.", DefaultRuntimeSettings);
    NegativeCellRun();
    Runtime.FreshDefaultRun("-.", [], DefaultRuntimeSettings, 5);
  }
}
